=== FILE: README.md ===
# Order exchange: matching and settlement

A Dafny model of the matching-and-settlement core of a limit-order exchange
for BTC and ETH. The exchange keeps three tables:

- users' cash balances;
- asset holdings per (user, symbol), each with a free `amount` and a `locked_amount` reserved by sell orders;
- orders, each with a user, symbol, side, price, amount and status (Open, Filled, Cancelled).

Three services rewrite these tables.

- `OrderService` places buy and sell limit orders, fills them and cancels them.
  - A buy escrows price × amount of cash.
  - A sell moves the quantity from free to locked.
  - A new order is then filled against the oldest Open opposite order whose price crosses. A failed fill is swallowed.
  - Cancelling reverses the reservation.
- `OrderMatchingService` is a stand-alone settlement routine.
  - It locks rows in ascending id order and re-validates both orders.
  - It trades at the sell price for the smaller of the two amounts.
  - It refunds or debits the buyer's escrow difference and pays the seller.
- `AssetTransferService` credits a holding, creating it if absent, and debits a holding's locked quantity.

The database is the class `Store.Ledger`, with one field per table. Every
service operation that writes rows is an imperative method on the ledger
(`OrderService.FillOrder`, `OrderMatching.OrderMatchingService.Execute`, …).
Each method is proved equal to a function from the tables before to the
outcome and the tables after (`Fill`, `PlaceBuy`, `Settle`, …). The lemmas in
`OrderServiceProofs` and `OrderMatchingProofs` are about those functions.

- Money and quantities are exact `real`s.
- The commission rate is 0.015.
- An order's id is its row position, which is also its creation order, so "oldest" means the lowest id.
- `Tables.Valid` is the ledger invariant:
  - no balance or holding quantity is negative;
  - every order has a positive price and amount;
  - each holding's locked quantity equals the sum of the amounts of its Open sell orders;
  - every Open sell order's holding exists.
- `Equity` is a user's balance plus the cash escrowed by the user's Open buy orders.

Where `fillOrder` differs from its own comment (OrderService.php:111) and from `OrderMatchingService` (OrderMatchingService.php:73, 117-122), the model follows `fillOrder`:

- The counterparty is chosen by age only, with no price priority.
- `fillOrder` trades the sell order's whole amount, not the smaller amount.
- `fillOrder` refuses a fill whose escrow does not cover value plus commission; it does not debit the difference.
- So an order never fills against an opposite order of the same price and amount. `Scenarios.EqualPriceDoesNotFill` shows the case from the feature test `can fulfill order`. The test expects a fill, and the model says it does not happen.

## Model

| member | source | states |
|---|---|---|
| Domain.SortedPair | app/Services/OrderMatchingService.php:44-45 | the two ids in ascending order, and exactly those two; `Execute` and `ProcessBalances` state that the order rows and the user rows are locked in this order |
| Domain.IsOpen | app/Models/Order.php:35-38 | the `open` scope's status test agrees with `cancelOrder`'s: an order is Open exactly when it is neither Filled nor Cancelled |
| Store.MarkFilled | app/Services/OrderService.php:145-148 | one order becomes Filled and keeps its user, symbol, side, price and amount; every other row is unchanged |
| Store.LocksAfterTrade | app/Services/OrderService.php:145-177 | closing an Open sell and a buy keeps every lock matched when the seller's holding gives up exactly the sell amount of its locked quantity |
| Store.PositiveAfterMarks | app/Services/OrderService.php:145-148 | marking orders Filled keeps prices and amounts positive |
| Store.Ledger.constructor | database/migrations/2025_12_15_111736_create_orders_table.php:14-28 | the ledger holds the three given tables |
| AssetTransferService.Credited | app/Services/AssetTransferService.php:13-31 | the holding exists afterwards; an absent one is created with the credited amount and nothing locked; an existing one gains the amount and keeps its locked quantity; no other holding changes |
| AssetTransferService.DebitedLocked | app/Services/AssetTransferService.php:37-54 | fails with "Asset not found for debit" or "Insufficient locked assets" exactly when those hold; on success locked falls by exactly the amount, amount is untouched, and no other holding changes |
| AssetTransferService.TransferConservesUnits | app/Services/AssetTransferService.php:13-54 | crediting one holding and debiting another's locked quantity by the same amount moves units from one to the other and leaves every other holding's total as it was |
| AssetTransferService.CreditAsset | app/Services/AssetTransferService.php:13-31 | the assets table becomes `Credited` of the old one |
| AssetTransferService.DebitLockedAsset | app/Services/AssetTransferService.php:37-54 | on success the table becomes the debited one; on failure it reports the error and changes nothing |
| OrderBook.GetOpenOrders | app/Services/OrderService.php:27-34 | exactly the Open orders, restricted to the symbol when one is given, each with its own row |
| OrderBook.SymbolFilterPartitions | app/Services/OrderService.php:27-34 | the unfiltered list is the union of the disjoint BTC and ETH lists |
| OrderBook.OldestCrossing | app/Services/OrderService.php:70-76 | the counterparty found is an Open order of the symbol and opposite side whose price crosses, and no older order crosses; none is found only when no order crosses |
| OrderBook.CounterpartyIsListed | app/Services/OrderService.php:70-76 | the counterparty is among the listed open orders of its symbol |
| OrderBook.AgeBeatsPrice | app/Services/OrderService.php:74 | of two crossing orders the newer is never chosen, whatever its price |
| OrderBook.GenerousLimitFindsOlder | app/Services/OrderService.php:70-76 | the lookup filter (`Crosses`) widens with the limit: a higher buy limit or a lower sell limit still finds a counterparty, one at least as old |
| OrderService.Reserve | app/Services/OrderService.php:202-204 | a sell's reservation adds the amount to locked and keeps amount + locked |
| OrderService.Release | app/Services/OrderService.php:274-276 | a cancelled sell's release keeps amount + locked and is undone by `Reserve` |
| OrderService.SpendLocked | app/Services/OrderService.php:168-177 | the seller's locked quantity falls by the traded amount when the holding exists; nothing else changes |
| OrderService.FillBalances | app/Services/OrderService.php:128-142 | the corrected update (see Findings; lines 128-142 as written are `FillBalancesAsWritten`): the buyer gains the refund when positive, the seller gains the total, a user who is both gains both, and no other balance changes |
| OrderService.FillBalancesAsWritten | app/Services/OrderService.php:118-142 | as written it agrees with `FillBalances` for two different users; when buyer and seller coincide only the seller's write survives, so the user gains the total and the refund is lost, and no other balance changes |
| OrderService.SelfTradeLosesRefund | app/Services/OrderService.php:118-142 | a user with balance 800 whose buy fills against their own sell (refund 98.5, total 100) ends with 900, not 998.5 |
| OrderService.FillRefund | app/Services/OrderService.php:128-130 | the escrow less value and commission; not negative exactly when the escrow covers 1.015 × the sell value |
| OrderService.Fill | app/Services/OrderService.php:96-181 | a missing order fails with "Order not found", a non-Open one with "not fillable", a missing user with "User not found" and an escrow short of value plus commission with "Insufficient balance for trade execution", all with no change; it passes exactly when none of these holds, and then both orders are Filled |
| OrderService.MatchPlaced | app/Services/OrderService.php:79-90 | the fill attempt on a new order; with no counterparty nothing changes, and afterwards the new order is Filled or the tables are exactly as placed (a failed fill is swallowed); an Open new order with a counterparty gets exactly `Fill`'s tables, the new order as buyer or as seller by its side |
| OrderService.EscrowedBuy | app/Services/OrderService.php:57-65 | the buy's placement before matching: what leaves the user's balance is exactly the new Open order's value; other balances, the holdings and the earlier rows are unchanged |
| OrderService.ReservedSell | app/Services/OrderService.php:202-206 | the sell's placement before matching: the holding's locked quantity rises by the new Open order's amount and amount + locked is kept; balances, other holdings and the earlier rows are unchanged |
| OrderService.PlaceBuy | app/Services/OrderService.php:49-94 | fails with "User not found" or "Insufficient balance" exactly when those hold, changing nothing; success returns the new order's id and appends one order |
| OrderService.PlaceSell | app/Services/OrderService.php:183-234 | fails with "Asset not found" without a holding and "Insufficient assets" exactly when amount − locked is below the request, changing nothing; succeeds exactly when amount − locked covers it, returning the new id and appending one order |
| OrderService.SellCheckCountsLockedTwice | app/Services/OrderService.php:196-200 | a holding with 998 free and 2 locked is refused a sell of 997 with "Insufficient assets" |
| OrderService.Cancel | app/Services/OrderService.php:236-282 | fails for a missing order, for a Filled or Cancelled one, for a buy whose user is missing ("Buyer not found") and for a sell whose holding is missing ("Asset not found"), changing nothing; success marks the order Cancelled and returns it; a buy's cancel adds price × amount back to the balance and leaves holdings alone, a sell's cancel moves the amount from locked back to free and leaves balances alone |
| OrderService.PayParties | app/Services/OrderService.php:128-142 | the balances become `FillBalances` of the old ones |
| OrderService.MarkBothFilled | app/Services/OrderService.php:145-148 | both orders become Filled |
| OrderService.ReleaseSold | app/Services/OrderService.php:168-177 | the seller's holding becomes `SpendLocked` of the old one |
| OrderService.EscrowAndRecord | app/Services/OrderService.php:62-65 | the balance loses price × amount and an Open buy row is appended, as `PlaceBuy` does before matching |
| OrderService.LockAndRecord | app/Services/OrderService.php:202-206 | the holding moves the amount from free to locked and an Open sell row is appended, as `PlaceSell` does before matching |
| OrderService.MatchNewOrder | app/Services/OrderService.php:78-89 | the fill attempt on the newest order: the tables become `MatchPlaced` of the old ones, a failed fill swallowed |
| OrderService.FillOrder | app/Services/OrderService.php:96-181 | the outcome and the new tables are those of `Fill` |
| OrderService.BuyOrder | app/Services/OrderService.php:49-94 | the outcome and the new tables are those of `PlaceBuy` |
| OrderService.SellOrder | app/Services/OrderService.php:183-234 | the outcome and the new tables are those of `PlaceSell` |
| OrderService.CreateLimitOrder | app/Services/OrderService.php:36-47 | a buy behaves as `PlaceBuy`, a sell as `PlaceSell` |
| OrderService.CancelOrder | app/Services/OrderService.php:236-282 | the outcome and the new tables are those of `Cancel`, the failed branches rolled back |
| OrderServiceProofs.FillPreservesValid | app/Services/OrderService.php:96-181 | filling a buy against a sell keeps the ledger invariant |
| OrderServiceProofs.FilledAssetsSound | app/Services/OrderService.php:150-177 | crediting the buyer and spending the seller's locked quantity leaves no quantity negative and lowers locked only at the seller's holding |
| OrderServiceProofs.FillMovesCash | app/Services/OrderService.php:128-142 | the buyer's equity falls by value plus commission, the seller's rises by the value, nobody else's changes |
| OrderServiceProofs.FillLosesOnlyCommission | app/Services/OrderService.php:120-142 | the two users' combined equity falls by exactly the commission |
| OrderServiceProofs.FillNeedsMargin | app/Services/OrderService.php:128-136 | a fill passes only when the escrow covers 1.015 × the sell value, so equal price and amount never fill |
| OrderServiceProofs.FillEffects | app/Services/OrderService.php:118-177 | the whole state after a fill: both rows Filled with their other fields kept and no other row touched; buyer refunded and seller paid the sell value, no other balance changed; the buyer's holding credited (created with nothing locked when absent), the seller's locked quantity spent, and no other holding changed or added |
| OrderServiceProofs.FillMovesAssets | app/Services/OrderService.php:150-177 | the buyer's holding gains the sell amount, the seller's locked loses it, other holdings are unchanged |
| OrderServiceProofs.EscrowKeepsValid | app/Services/OrderService.php:57-65 | the escrow step keeps the invariant |
| OrderServiceProofs.EscrowKeepsEquity | app/Services/OrderService.php:57-65 | the escrow step changes no user's equity: the cash only moves into the new order's escrow |
| OrderServiceProofs.ReservationKeepsValid | app/Services/OrderService.php:196-206 | the reservation step keeps the invariant |
| OrderServiceProofs.MatchKeepsValid | app/Services/OrderService.php:79-90 | filling the new order against the counterparty found keeps the invariant |
| OrderServiceProofs.PlaceBuyPreservesValid | app/Services/OrderService.php:49-94 | a buy placement keeps the invariant, filled or not |
| OrderServiceProofs.PlaceSellPreservesValid | app/Services/OrderService.php:183-234 | a sell placement keeps the invariant, filled or not |
| OrderServiceProofs.PlaceBuyEscrows | app/Services/OrderService.php:57-65 | a successful buy records the order as requested and, unless it filled, debits exactly price × amount and changes nothing else |
| OrderServiceProofs.PlaceSellLocks | app/Services/OrderService.php:202-206 | a successful sell records the order and, unless it filled, moves exactly the amount from free to locked |
| OrderServiceProofs.CancelPreservesValid | app/Services/OrderService.php:236-282 | cancelling keeps the invariant |
| OrderServiceProofs.CancelOpenSucceeds | app/Services/OrderService.php:253-277 | under the invariant an Open order of an existing buyer always cancels |
| OrderServiceProofs.CancelKeepsEquity | app/Services/OrderService.php:253-260 | cancelling moves the escrow back to the balance, so nobody's equity changes |
| OrderServiceProofs.BuyThenCancelRestores | app/Services/OrderService.php:236-282 | placing a buy and cancelling it before it fills restores balances and holdings exactly |
| OrderServiceProofs.SellThenCancelRestores | app/Services/OrderService.php:263-277 | placing a sell and cancelling it before it fills restores balances and holdings exactly |
| OrderMatching.Min | app/Services/OrderMatchingService.php:73 | the smaller of two amounts |
| OrderMatching.Terms | app/Services/OrderMatchingService.php:70-83 | price is the sell price, amount the smaller order amount, total price × amount, commission 0.015 × total |
| OrderMatching.BuyerAdjustment | app/Services/OrderMatchingService.php:111-113 | positive (a refund) exactly when the escrow exceeds value plus commission, negative (a shortfall) exactly when it falls below |
| OrderMatching.ValidateOrders | app/Services/OrderMatchingService.php:41-67 | passes exactly when both orders exist, both are Open and the buy price reaches the sell price; a missing row fails with the TypeError its assignment to the typed property raises (lines 53-54), a non-Open order with "not fillable", uncrossed prices with "cannot match" |
| OrderMatching.SettleBalances | app/Services/OrderMatchingService.php:86-133 | fails with "User not found" when a user is missing and with the commission error exactly when a shortfall exceeds the buyer's balance; succeeds exactly otherwise, the buyer moving by the escrow less value and commission and the seller gaining the value |
| OrderMatching.Settle | app/Services/OrderMatchingService.php:30-38 | a failure leaves the tables as they were; a validation failure is reported as such; after validation, a balance error or a debit error becomes the result, and it passes exactly when neither occurs |
| OrderMatching.OrderMatchingService.constructor | app/Services/OrderMatchingService.php:16-23 | the routine is bound to the ledger and the two order ids |
| OrderMatching.OrderMatchingService.LockAndValidateOrders | app/Services/OrderMatchingService.php:41-67 | locks in ascending id order, reloads both rows (none when missing) and reports `ValidateOrders` |
| OrderMatching.OrderMatchingService.CalculateExecution | app/Services/OrderMatchingService.php:70-83 | the execution terms become `Terms` of the two orders |
| OrderMatching.OrderMatchingService.AdjustBuyerBalance | app/Services/OrderMatchingService.php:109-126 | refunds a surplus, debits a covered shortfall, fails on an uncovered one without writing |
| OrderMatching.OrderMatchingService.AdjustSellerBalance | app/Services/OrderMatchingService.php:129-133 | the seller gains exactly the total value |
| OrderMatching.OrderMatchingService.ProcessBalances | app/Services/OrderMatchingService.php:86-106 | locks users in ascending id order and applies `SettleBalances` |
| OrderMatching.OrderMatchingService.TransferAssets | app/Services/OrderMatchingService.php:135-148 | credits the buyer's holding and debits the seller's locked quantity by the execution amount; when the debit fails it reports the error and leaves the buyer already credited, the partial write `Execute` rolls back |
| OrderMatching.OrderMatchingService.CompleteOrders | app/Services/OrderMatchingService.php:151-158 | both orders become Filled |
| OrderMatching.OrderMatchingService.Execute | app/Services/OrderMatchingService.php:30-38 | the outcome and the new tables are those of `Settle`, and the order rows were locked in ascending id order |
| OrderMatchingProofs.ShortfallAtMostCommission | app/Services/OrderMatchingService.php:111-122 | when the prices cross the trade value never exceeds the escrow, so a shortfall is at most the commission |
| OrderMatchingProofs.SettleMovesCash | app/Services/OrderMatchingService.php:111-131 | the buyer's equity falls by value plus commission, the seller's rises by the value, nobody else's changes |
| OrderMatchingProofs.SettleLosesOnlyCommission | app/Services/OrderMatchingService.php:111-131 | the buyer's net cost less the seller's receipt is exactly the commission |
| OrderMatchingProofs.SettleEffects | app/Services/OrderMatchingService.php:109-158 | balances move by the buyer adjustment and the seller's value; the buyer's holding gains the execution amount with its locked quantity kept (created with nothing locked when absent), the seller's locked loses it, no other holding changes or is added; both orders are Filled |
| OrderMatchingProofs.SettleKeepsValid | app/Services/OrderMatchingService.php:135-158 | when the buy amount is at least the sell amount, settlement keeps the invariant |
| OrderMatchingProofs.SettledBalancesSound | app/Services/OrderMatchingService.php:117-122 | settlement leaves no balance negative |
| OrderMatchingProofs.SettledAssetsSound | app/Services/OrderMatchingService.php:135-148 | the transfer leaves no quantity negative and changes locked only at the seller's holding |
| OrderMatchingProofs.SettleStrandsRemainder | app/Services/OrderMatchingService.php:143-157 | when the buy is the smaller order, sell amount − buy amount stays locked with no Open order behind it, so the invariant fails |
| Scenarios.BuyEscrowsBalance | tests/Feature/OrderServiceTest.php:13-31 | a buy of 1 at 10000 with balance 10000 leaves the order Open and the balance 0 |
| Scenarios.SellLocksQuantity | tests/Feature/OrderServiceTest.php:33-55 | a sell of 1 out of 1000 locks 1 and leaves the order Open |
| Scenarios.RestingSellPlaced | app/Services/OrderService.php:183-234 | on an empty book a sell of 2 at 100 rests with 2 BTC locked |
| Scenarios.EqualBuyRests | app/Services/OrderService.php:128-136 | a buy of 2 at 100 against that sell rests, its balance down by 200 |
| Scenarios.CrossingBuyFilled | app/Services/OrderService.php:112-177 | a buy of 2 at 110 against that sell fills: balances 797 and 300, holdings (2, 0) and (998, 0) |
| Scenarios.BuyBeyondBalanceRefused | tests/Feature/OrderServiceTest.php:58-71 | a buy beyond the balance is refused and nothing is recorded |
| Scenarios.CancelReturnsEscrow | tests/Feature/OrderServiceTest.php:77-104 | the balance goes 10000, 9000, 10000 and the order ends Cancelled |
| Scenarios.EqualPriceDoesNotFill | app/Services/OrderService.php:128-136 | an equal-price buy against a resting sell stays Open with both reservations in place |
| Scenarios.CrossingBuyFills | app/Services/OrderService.php:112-177 | a buy of 2 at 110 against a sell of 2 at 100 fills: buyer 797, seller 300, two BTC move |
| Scenarios.PartialSettlementStrandsLock | app/Services/OrderMatchingService.php:70-157 | settling a buy of 1 against a sell of 2 closes both and leaves 1 BTC locked |

## Left out

- Row locks and transactions as concurrency mechanisms. One operation runs at a time. A placement, a cancellation and a settlement each commit or roll back as a whole. Lock order survives only as the ascending-id fact.
- The order events and their broadcasting (`OrderCreated`, `OrderMatched`, `OrderCancelled`, `dispatchEvent`): they carry no state the model needs.
- The HTTP controller, routes, request validation and JSON resources.
  - The validation's positive price and amount appear as preconditions of the invariant lemmas.
  - The ownership check before a cancellation is not modelled.
- The DTO and the "Invalid order side" exception. With a two-valued side that branch cannot be reached.
- PHP floating-point arithmetic. The model computes exactly, so rounding drift is not captured.
- Creation timestamps. `oldest()` sorts by creation time, and the model orders by row id. Two orders created in the same second would be ordered by id here; the source leaves their order to the database.
- OrderService.PlaceSell: the availability check `amount − locked_amount` is modelled as written. `amount` already excludes the locked quantity, so the check counts the locked part twice and can refuse a sell the free quantity covers; `SellCheckCountsLockedTwice` gives an input.
- OrderMatching.ValidateOrders, OrderMatching.OrderMatchingService.LockAndValidateOrders: a missing order row fails with `OrderRowMissing`, standing for the TypeError raised when the routine assigns the null row to its non-nullable `Order` property (OrderMatchingService.php:12-13, 53-54); the "Order not found" check after it (lines 56-58) can never run and is not modelled.
- OrderMatching.Settle: the routine never checks that the "buy" order is a buy, the "sell" order a sell, or that both have the same symbol. The invariant and cash lemmas require the sides.
- OrderMatchingProofs.SettleKeepsValid: proved only when the buy amount is at least the sell amount. Otherwise the invariant fails, and `SettleStrandsRemainder` proves that.
- OrderService.FillOrder: models the corrected balance update of the finding below; `FillBalancesAsWritten` models the code as written.
- OrderService.Fill, OrderService.PayParties, OrderService.PlaceBuy, OrderService.PlaceSell, OrderService.BuyOrder, OrderService.SellOrder, OrderService.CreateLimitOrder: all use that corrected update, so a self-trade keeps its refund here, unlike the code.

## Findings

| source | as written | input that shows it | evidently intended | confidence | as-written member | corrected member |
|---|---|---|---|---|---|---|
| app/Services/OrderService.php:118-142 | buyer and seller rows are loaded as two separate models; the buyer's refund is saved, then the seller's stale copy plus the total is saved over it | user 7 with balance 800 (after escrow) buys 1 at 200 from their own sell of 1 at 100: refund 98.5, total 100, final balance 900 | the same user's balance gains both, ending at 998.5 | high; not executed | OrderService.SelfTradeLosesRefund | OrderService.FillBalances |

=== FILE: asset_transfer_service.dfy ===
/**
 * The two asset-ledger primitives: credit a holding (creating it when absent)
 * and debit a holding's locked quantity.
 */
module AssetTransferService {
  import opened Domain
  import opened Store

  /** The assets table after `amount` is credited to the holding `key`. */
  function Credited(assets: map<AssetKey, Asset>, key: AssetKey, amount: real): (r: map<AssetKey, Asset>)
    ensures key in r
    ensures key !in assets ==> r[key] == Asset(amount, 0.0)
    ensures key in assets ==> r[key].amount == assets[key].amount + amount && r[key].locked == assets[key].locked
    ensures forall k :: k != key ==> (k in r <==> k in assets) && (k in assets ==> r[k] == assets[k])
  {
    if key !in assets then assets[key := Asset(amount, 0.0)]
    else assets[key := assets[key].(amount := assets[key].amount + amount)]
  }

  /** The assets table after `amount` is taken from the locked quantity of holding `key`, or the error. */
  function DebitedLocked(assets: map<AssetKey, Asset>, key: AssetKey, amount: real): (r: Result<map<AssetKey, Asset>>)
    ensures key !in assets ==> r == Err(AssetNotFoundForDebit)
    ensures key in assets && assets[key].locked < amount ==> r == Err(InsufficientLockedAssets)
    ensures r.Ok? <==> key in assets && assets[key].locked >= amount
    ensures r.Ok? ==> key in r.value && r.value[key].amount == assets[key].amount
    ensures r.Ok? ==> r.value[key].locked == assets[key].locked - amount
    ensures r.Ok? ==> forall k :: k != key ==> (k in r.value <==> k in assets) && (k in assets ==> r.value[k] == assets[k])
  {
    if key !in assets then Err(AssetNotFoundForDebit)
    else if assets[key].locked < amount then Err(InsufficientLockedAssets)
    else Ok(assets[key := assets[key].(locked := assets[key].locked - amount)])
  }

  /** The quantity of `key` held in all: free plus locked. */
  function Units(assets: map<AssetKey, Asset>, key: AssetKey): real {
    if key in assets then assets[key].amount + assets[key].locked else 0.0
  }

  /**
   * Crediting one holding and debiting another's locked quantity by the same
   * amount moves units from one to the other: their combined quantity is
   * unchanged, and every other holding is untouched.
   */
  lemma TransferConservesUnits(assets: map<AssetKey, Asset>, to: AssetKey, from: AssetKey, amount: real)
    requires DebitedLocked(Credited(assets, to, amount), from, amount).Ok?
    ensures var after := DebitedLocked(Credited(assets, to, amount), from, amount).value;
      && (to != from ==> Units(after, to) == Units(assets, to) + amount && Units(after, from) == Units(assets, from) - amount)
      && (to == from ==> Units(after, to) == Units(assets, to))
      && forall k :: k != to && k != from ==> Units(after, k) == Units(assets, k)
  {
    var credited := Credited(assets, to, amount);
    var after := DebitedLocked(credited, from, amount).value;
    forall k | k != to && k != from
      ensures Units(after, k) == Units(assets, k)
    {
      assert k in after <==> k in assets;
    }
  }

  /** `creditAsset`: adds to the holding's free amount, or creates the holding with nothing locked. */
  method CreditAsset(db: Ledger, user: UserId, symbol: Symbol, amount: real)
    modifies db`assets
    ensures db.assets == Credited(old(db.assets), AssetKey(user, symbol), amount)
  {
    var key := AssetKey(user, symbol);
    if key !in db.assets {
      db.assets := db.assets[key := Asset(amount, 0.0)];
    } else {
      var asset := db.assets[key];
      asset := asset.(amount := asset.amount + amount);
      db.assets := db.assets[key := asset];
    }
  }

  /** `debitLockedAsset`: takes `amount` out of the holding's locked quantity, or fails leaving it as it was. */
  method DebitLockedAsset(db: Ledger, user: UserId, symbol: Symbol, amount: real) returns (r: Outcome)
    modifies db`assets
    ensures var d := DebitedLocked(old(db.assets), AssetKey(user, symbol), amount);
      && (d.Ok? ==> r == Pass && db.assets == d.value)
      && (d.Err? ==> r == Fail(d.error) && db.assets == old(db.assets))
  {
    var key := AssetKey(user, symbol);
    if key !in db.assets {
      return Fail(AssetNotFoundForDebit);
    }
    var asset := db.assets[key];
    if asset.locked < amount {
      return Fail(InsufficientLockedAssets);
    }
    asset := asset.(locked := asset.locked - amount);
    db.assets := db.assets[key := asset];
    return Pass;
  }
}

=== FILE: domain.dfy ===
/**
 * Value types of the exchange: the enums, the three kinds of table row, the
 * errors the services throw, and the small result wrappers used in place of
 * exceptions.
 */
module Domain {

  type UserId = nat

  /** An order's id is its position in the orders table, which is also its creation stamp. */
  type OrderId = nat

  datatype Symbol = BTC | ETH

  datatype OrderSide = Buy | Sell

  datatype OrderStatus = Open | Filled | Cancelled

  /** A row of the orders table. */
  datatype Order = Order(
    user: UserId,
    symbol: Symbol,
    side: OrderSide,
    price: real,
    amount: real,
    status: OrderStatus)

  /** The `open` query scope: only orders whose status is Open. */
  predicate IsOpen(o: Order): (r: bool)
    ensures r <==> o.status != Filled && o.status != Cancelled
  {
    o.status == Open
  }

  /** An order's value, price times amount: the cash a buy order escrows. */
  function Value(o: Order): real {
    o.price * o.amount
  }

  /** The key of the assets table: one holding per (user, symbol). */
  datatype AssetKey = AssetKey(user: UserId, symbol: Symbol)

  /** A row of the assets table: the free `amount` and the `locked` quantity reserved by sell orders. */
  datatype Asset = Asset(amount: real, locked: real)

  /** The holding an order draws on or delivers to. */
  function HoldingOf(o: Order): AssetKey {
    AssetKey(o.user, o.symbol)
  }

  /** Commission charged to the buyer on the value of a trade: 1.5 %. */
  const CommissionRate: real := 0.015

  /** One constructor per exception message the services throw. */
  datatype Error =
    | UserNotFound                      // "User not found"
    | InsufficientBalance               // "Insufficient balance"
    | AssetNotFound                     // "Asset not found"
    | InsufficientAssets                // "Insufficient assets"
    | OrderNotFound                     // "Order not found"
    | OrderRowMissing                   // TypeError: a missing row assigned to a non-nullable `Order` property
    | OrderNotFillable                  // "Order cannot be filled - status changed"
    | InsufficientBalanceForTrade       // "Insufficient balance for trade execution"
    | OrderNotCancellable               // "Order cannot be cancelled"
    | BuyerNotFound                     // "Buyer not found"
    | PricesDoNotCross                  // "Orders cannot match - buy price is less than sell price"
    | InsufficientBalanceForCommission  // "Insufficient balance for trade execution and commission"
    | AssetNotFoundForDebit             // "Asset not found for debit"
    | InsufficientLockedAssets          // "Insufficient locked assets"

  datatype Option<T> = None | Some(value: T)

  datatype Result<T> = Ok(value: T) | Err(error: Error)

  datatype Outcome = Pass | Fail(error: Error)

  /** A two-element `sort()`: the ascending order in which a pair of row locks is taken. */
  function SortedPair(x: nat, y: nat): (r: seq<nat>)
    ensures |r| == 2 && r[0] <= r[1]
    ensures (r[0] == x && r[1] == y) || (r[0] == y && r[1] == x)
  {
    if x <= y then [x, y] else [y, x]
  }
}

=== FILE: order_book.dfy ===
/**
 * The read paths over the orders table: the list of open orders and the
 * counterparty lookup used when an order is placed.
 */
module OrderBook {
  import opened Domain

  /** `getOpenOrders`: the Open orders by id, only those of `symbol` when one is given. */
  function GetOpenOrders(orders: seq<Order>, symbol: Option<Symbol>): (r: map<OrderId, Order>)
    ensures forall id: OrderId :: id in r <==> id < |orders| && IsOpen(orders[id]) && (symbol.Some? ==> orders[id].symbol == symbol.value)
    ensures forall id: OrderId :: id in r ==> r[id] == orders[id]
  {
    map id: OrderId | id < |orders| && IsOpen(orders[id]) && (symbol.Some? ==> orders[id].symbol == symbol.value) :: orders[id]
  }

  /** The lookup's filter: an Open order of `symbol` on `side` whose price crosses `limit`. */
  predicate Crosses(o: Order, symbol: Symbol, side: OrderSide, limit: real) {
    && IsOpen(o)
    && o.symbol == symbol
    && o.side == side
    && (if side == Sell then o.price <= limit else o.price >= limit)
  }

  /**
   * The oldest order at or after position `from` that crosses `limit`: a buy
   * looks for sells priced at most its price, a sell for buys priced at least
   * its price, and among those only age decides.
   */
  function OldestCrossing(orders: seq<Order>, symbol: Symbol, side: OrderSide, limit: real, from: nat := 0): (r: Option<OrderId>)
    requires from <= |orders|
    ensures r.Some? ==> from <= r.value < |orders| && Crosses(orders[r.value], symbol, side, limit)
    ensures r.Some? ==> forall j :: from <= j < r.value ==> !Crosses(orders[j], symbol, side, limit)
    ensures r.None? ==> forall j :: from <= j < |orders| ==> !Crosses(orders[j], symbol, side, limit)
    decreases |orders| - from
  {
    if from == |orders| then None
    else if Crosses(orders[from], symbol, side, limit) then Some(from)
    else OldestCrossing(orders, symbol, side, limit, from + 1)
  }

  /** The counterparty found by the lookup is one of the listed open orders of its symbol. */
  lemma CounterpartyIsListed(orders: seq<Order>, symbol: Symbol, side: OrderSide, limit: real)
    requires OldestCrossing(orders, symbol, side, limit).Some?
    ensures OldestCrossing(orders, symbol, side, limit).value in GetOpenOrders(orders, Some(symbol))
  {
  }

  /** Filtering by symbol splits the open orders into the BTC and the ETH ones. */
  lemma SymbolFilterPartitions(orders: seq<Order>)
    ensures GetOpenOrders(orders, None) == GetOpenOrders(orders, Some(BTC)) + GetOpenOrders(orders, Some(ETH))
    ensures GetOpenOrders(orders, Some(BTC)).Keys !! GetOpenOrders(orders, Some(ETH)).Keys
  {
    var all, btc, eth := GetOpenOrders(orders, None), GetOpenOrders(orders, Some(BTC)), GetOpenOrders(orders, Some(ETH));
    assert all.Keys == btc.Keys + eth.Keys by {
      forall id | id in all ensures id in btc || id in eth {
        assert orders[id].symbol == BTC || orders[id].symbol == ETH;
      }
    }
  }

  /**
   * No price priority: a crossing order placed earlier wins over a better
   * priced crossing order placed later.
   */
  lemma AgeBeatsPrice(orders: seq<Order>, symbol: Symbol, side: OrderSide, limit: real, older: OrderId, newer: OrderId)
    requires older < newer < |orders|
    requires Crosses(orders[older], symbol, side, limit) && Crosses(orders[newer], symbol, side, limit)
    ensures OldestCrossing(orders, symbol, side, limit) != Some(newer)
  {
  }

  /**
   * A more generous limit (a higher one for a buyer looking for sells, a lower
   * one for a seller looking for buys) still finds a counterparty, and one at
   * least as old.
   */
  lemma GenerousLimitFindsOlder(orders: seq<Order>, symbol: Symbol, side: OrderSide, limit: real, generous: real)
    requires if side == Sell then limit <= generous else generous <= limit
    requires OldestCrossing(orders, symbol, side, limit).Some?
    ensures OldestCrossing(orders, symbol, side, generous).Some?
    ensures OldestCrossing(orders, symbol, side, generous).value <= OldestCrossing(orders, symbol, side, limit).value
  {
    var found := OldestCrossing(orders, symbol, side, limit).value;
    assert Crosses(orders[found], symbol, side, generous);
  }
}

=== FILE: order_matching.dfy ===
/**
 * The stand-alone settlement routine: re-validates a buy and a sell order,
 * computes the execution terms (the sell price, the smaller of the two
 * amounts), settles both users' cash, moves the traded quantity and closes
 * both orders. `Settle` is the whole routine as a function of the tables;
 * the class runs it step by step on the ledger.
 */
module OrderMatching {
  import opened Domain
  import opened Store
  import opened AssetTransferService

  /** The `execution` array: price, amount, total value and commission of one trade. */
  datatype ExecutionTerms = ExecutionTerms(price: real, amount: real, totalValue: real, commission: real)

  function Min(x: real, y: real): (m: real)
    ensures m <= x && m <= y && (m == x || m == y)
  {
    if x <= y then x else y
  }

  /** `calculateExecution`: the trade runs at the sell price for the smaller of the two amounts. */
  function Terms(buy: Order, sell: Order): (e: ExecutionTerms)
    ensures e.price == sell.price
    ensures e.amount <= buy.amount && e.amount <= sell.amount
    ensures e.amount == buy.amount || e.amount == sell.amount
    ensures e.totalValue == e.price * e.amount
    ensures e.commission == CommissionRate * e.totalValue
  {
    var amount := Min(buy.amount, sell.amount);
    var total := sell.price * amount;
    ExecutionTerms(sell.price, amount, total, CommissionRate * total)
  }

  /** `lockAndValidateOrders`: both orders exist, both are Open, and the buy price reaches the sell price. */
  function ValidateOrders(orders: seq<Order>, buyId: OrderId, sellId: OrderId): (r: Outcome)
    ensures r.Pass? <==>
      buyId < |orders| && sellId < |orders| && IsOpen(orders[buyId]) && IsOpen(orders[sellId])
      && orders[buyId].price >= orders[sellId].price
    ensures buyId >= |orders| || sellId >= |orders| ==> r == Fail(OrderRowMissing)
    ensures buyId < |orders| && sellId < |orders| && (!IsOpen(orders[buyId]) || !IsOpen(orders[sellId])) ==> r == Fail(OrderNotFillable)
    ensures r == Fail(PricesDoNotCross) <==>
      buyId < |orders| && sellId < |orders| && IsOpen(orders[buyId]) && IsOpen(orders[sellId])
      && orders[buyId].price < orders[sellId].price
  {
    if buyId >= |orders| || sellId >= |orders| then Fail(OrderRowMissing)
    else if !IsOpen(orders[buyId]) || !IsOpen(orders[sellId]) then Fail(OrderNotFillable)
    else if orders[buyId].price < orders[sellId].price then Fail(PricesDoNotCross)
    else Pass
  }

  /** What `adjustBuyerBalance` adds to the buyer: the escrow less value and commission (negative when short). */
  function BuyerAdjustment(buy: Order, e: ExecutionTerms): (r: real)
    ensures r > 0.0 <==> Value(buy) > e.totalValue + e.commission
    ensures r < 0.0 <==> Value(buy) < e.totalValue + e.commission
  {
    Value(buy) - (e.totalValue + e.commission)
  }

  /**
   * `processBalances`: the buyer's balance moves by the adjustment (refund or
   * shortfall), failing when the balance cannot cover a shortfall; then the
   * seller receives the total value. Both writes go to the one loaded row when
   * buyer and seller are the same user.
   */
  function SettleBalances(balances: map<UserId, real>, buy: Order, sell: Order, e: ExecutionTerms): (r: Result<map<UserId, real>>)
    ensures buy.user !in balances || sell.user !in balances ==> r == Err(UserNotFound)
    ensures r == Err(InsufficientBalanceForCommission) <==>
      buy.user in balances && sell.user in balances && BuyerAdjustment(buy, e) < 0.0 && balances[buy.user] < -BuyerAdjustment(buy, e)
    ensures r.Ok? <==>
      buy.user in balances && sell.user in balances
      && !(BuyerAdjustment(buy, e) < 0.0 && balances[buy.user] < -BuyerAdjustment(buy, e))
    ensures r.Ok? ==> r.value.Keys == balances.Keys
    ensures r.Ok? ==> forall u :: u in balances ==>
      r.value[u] == balances[u] + (if u == buy.user then BuyerAdjustment(buy, e) else 0.0) + (if u == sell.user then e.totalValue else 0.0)
  {
    if buy.user !in balances || sell.user !in balances then Err(UserNotFound)
    else
      var adjustment := BuyerAdjustment(buy, e);
      if adjustment < 0.0 && balances[buy.user] < -adjustment then Err(InsufficientBalanceForCommission)
      else
        var afterBuyer := balances[buy.user := balances[buy.user] + adjustment];
        Ok(afterBuyer[sell.user := afterBuyer[sell.user] + e.totalValue])
  }

  /**
   * `execute` run in a transaction: either every step succeeds and all three
   * tables are rewritten, or a step throws and the tables stay as they were.
   */
  function Settle(t: Tables, buyId: OrderId, sellId: OrderId): (s: Transition<Outcome>)
    ensures s.result.Fail? ==> s.tables == t
    ensures ValidateOrders(t.orders, buyId, sellId).Fail? ==> s.result == ValidateOrders(t.orders, buyId, sellId)
    ensures s.result.Pass? ==> ValidateOrders(t.orders, buyId, sellId).Pass?
    ensures ValidateOrders(t.orders, buyId, sellId).Pass? ==>
      var buy, sell := t.orders[buyId], t.orders[sellId];
      var e := Terms(buy, sell);
      var balances := SettleBalances(t.balances, buy, sell, e);
      var assets := DebitedLocked(Credited(t.assets, HoldingOf(buy), e.amount), HoldingOf(sell), e.amount);
      && (balances.Err? ==> s.result == Fail(balances.error))
      && (balances.Ok? && assets.Err? ==> s.result == Fail(assets.error))
      && (s.result.Pass? <==> balances.Ok? && assets.Ok?)
  {
    var valid := ValidateOrders(t.orders, buyId, sellId);
    if valid.Fail? then Transition(valid, t)
    else
      var buy, sell := t.orders[buyId], t.orders[sellId];
      var e := Terms(buy, sell);
      match SettleBalances(t.balances, buy, sell, e)
      case Err(error) => Transition(Fail(error), t)
      case Ok(balances) =>
        match DebitedLocked(Credited(t.assets, HoldingOf(buy), e.amount), HoldingOf(sell), e.amount)
        case Err(error) => Transition(Fail(error), t)
        case Ok(assets) => Transition(Pass, Tables(balances, assets, MarkFilled(MarkFilled(t.orders, buyId), sellId)))
  }

  /** The settlement routine over the ledger, one field per piece of state it keeps between steps. */
  class OrderMatchingService {
    const db: Ledger
    const buyId: OrderId
    const sellId: OrderId
    /** The buy order row as last loaded (None when the lookup found nothing). */
    var buyOrder: Option<Order>
    var sellOrder: Option<Order>
    var execution: ExecutionTerms
    /** The order in which the order rows, then the user rows, were locked. */
    var orderLockOrder: seq<nat>
    var userLockOrder: seq<nat>

    /** Only the ids of the orders handed to the constructor are read before they are reloaded. */
    constructor (db: Ledger, buyId: OrderId, sellId: OrderId)
      ensures this.db == db && this.buyId == buyId && this.sellId == sellId
      ensures buyOrder == None && sellOrder == None
      ensures orderLockOrder == [] && userLockOrder == []
    {
      this.db := db;
      this.buyId := buyId;
      this.sellId := sellId;
      buyOrder := None;
      sellOrder := None;
      execution := ExecutionTerms(0.0, 0.0, 0.0, 0.0);
      orderLockOrder := [];
      userLockOrder := [];
    }

    /** `lockAndValidateOrders`: locks both rows in ascending id order, reloads them and validates them. */
    method LockAndValidateOrders() returns (r: Outcome)
      modifies this`buyOrder, this`sellOrder, this`orderLockOrder
      ensures orderLockOrder == SortedPair(buyId, sellId)
      ensures buyOrder == (if buyId < |db.orders| then Some(db.orders[buyId]) else None)
      ensures sellOrder == (if sellId < |db.orders| then Some(db.orders[sellId]) else None)
      ensures r == ValidateOrders(db.orders, buyId, sellId)
    {
      orderLockOrder := SortedPair(buyId, sellId);
      buyOrder := if buyId < |db.orders| then Some(db.orders[buyId]) else None;
      sellOrder := if sellId < |db.orders| then Some(db.orders[sellId]) else None;
      if buyOrder.None? || sellOrder.None? {
        return Fail(OrderRowMissing);
      }
      if !IsOpen(buyOrder.value) || !IsOpen(sellOrder.value) {
        return Fail(OrderNotFillable);
      }
      if buyOrder.value.price < sellOrder.value.price {
        return Fail(PricesDoNotCross);
      }
      return Pass;
    }

    /** `calculateExecution`: fixes the terms of the trade. */
    method CalculateExecution()
      requires buyOrder.Some? && sellOrder.Some?
      modifies this`execution
      ensures execution == Terms(buyOrder.value, sellOrder.value)
    {
      var price := sellOrder.value.price;
      var amount := Min(buyOrder.value.amount, sellOrder.value.amount);
      var total := price * amount;
      execution := ExecutionTerms(price, amount, total, CommissionRate * total);
    }

    /** `adjustBuyerBalance`: refunds the surplus of the escrow, or debits the shortfall when the balance covers it. */
    method AdjustBuyerBalance(buyer: UserId) returns (r: Outcome)
      requires buyOrder.Some? && buyer in db.balances
      modifies db`balances
      ensures var adjustment := BuyerAdjustment(buyOrder.value, execution);
        if adjustment < 0.0 && old(db.balances[buyer]) < -adjustment
        then r == Fail(InsufficientBalanceForCommission) && db.balances == old(db.balances)
        else r == Pass && db.balances == old(db.balances)[buyer := old(db.balances[buyer]) + adjustment]
    {
      var paid := Value(buyOrder.value);
      var owed := execution.totalValue + execution.commission;
      var refund := paid - owed;
      if refund > 0.0 {
        db.balances := db.balances[buyer := db.balances[buyer] + refund];
      } else if refund < 0.0 {
        var additional := -refund;
        if db.balances[buyer] < additional {
          return Fail(InsufficientBalanceForCommission);
        }
        db.balances := db.balances[buyer := db.balances[buyer] - additional];
      }
      return Pass;
    }

    /** `adjustSellerBalance`: the seller receives the total value; no commission is taken from it. */
    method AdjustSellerBalance(seller: UserId)
      requires seller in db.balances
      modifies db`balances
      ensures db.balances == old(db.balances)[seller := old(db.balances[seller]) + execution.totalValue]
    {
      db.balances := db.balances[seller := db.balances[seller] + execution.totalValue];
    }

    /** `processBalances`: locks both user rows in ascending id order and settles both. */
    method ProcessBalances() returns (r: Outcome)
      requires buyOrder.Some? && sellOrder.Some?
      modifies db`balances, this`userLockOrder
      ensures userLockOrder == SortedPair(buyOrder.value.user, sellOrder.value.user)
      ensures var b := SettleBalances(old(db.balances), buyOrder.value, sellOrder.value, execution);
        && (b.Ok? ==> r == Pass && db.balances == b.value)
        && (b.Err? ==> r == Fail(b.error) && db.balances == old(db.balances))
    {
      var buyer := buyOrder.value.user;
      var seller := sellOrder.value.user;
      userLockOrder := SortedPair(buyer, seller);
      if buyer !in db.balances || seller !in db.balances {
        return Fail(UserNotFound);
      }
      r := AdjustBuyerBalance(buyer);
      if r.Fail? {
        return;
      }
      AdjustSellerBalance(seller);
    }

    /** `transferAssets`: credits the buyer's holding, then debits the seller's locked quantity. */
    method TransferAssets() returns (r: Outcome)
      requires buyOrder.Some? && sellOrder.Some?
      modifies db`assets
      ensures var d := DebitedLocked(Credited(old(db.assets), HoldingOf(buyOrder.value), execution.amount), HoldingOf(sellOrder.value), execution.amount);
        && (d.Ok? ==> r == Pass && db.assets == d.value)
        && (d.Err? ==> r == Fail(d.error) && db.assets == Credited(old(db.assets), HoldingOf(buyOrder.value), execution.amount))
    {
      CreditAsset(db, buyOrder.value.user, buyOrder.value.symbol, execution.amount);
      r := DebitLockedAsset(db, sellOrder.value.user, sellOrder.value.symbol, execution.amount);
    }

    /** `completeOrders`: both orders become Filled, whatever their amounts. */
    method CompleteOrders()
      requires buyId < |db.orders| && sellId < |db.orders|
      modifies db`orders
      ensures db.orders == MarkFilled(MarkFilled(old(db.orders), buyId), sellId)
    {
      db.orders := db.orders[buyId := db.orders[buyId].(status := Filled)];
      db.orders := db.orders[sellId := db.orders[sellId].(status := Filled)];
    }

    /**
     * `execute`: runs the steps in order; a step that throws abandons the rest
     * and the enclosing transaction restores the tables.
     */
    method Execute() returns (r: Outcome)
      modifies this`buyOrder, this`sellOrder, this`orderLockOrder, this`userLockOrder, this`execution
      modifies db`balances, db`assets, db`orders
      ensures Transition(r, db.Snapshot()) == Settle(old(db.Snapshot()), buyId, sellId)
      ensures orderLockOrder == SortedPair(buyId, sellId)
    {
      var saved := db.Snapshot();
      r := LockAndValidateOrders();
      if r.Pass? {
        CalculateExecution();
        r := ProcessBalances();
      }
      if r.Pass? {
        r := TransferAssets();
      }
      if r.Pass? {
        CompleteOrders();
      }
      if r.Fail? {
        db.balances, db.assets, db.orders := saved.balances, saved.assets, saved.orders;
      }
    }
  }
}

=== FILE: order_matching_proofs.dfy ===
/**
 * What the settlement routine moves: cash between buyer and seller with the
 * commission as the only loss, the traded quantity between holdings, and
 * what it leaves behind in the seller's locked quantity when the buy order
 * is the smaller one.
 */
module OrderMatchingProofs {
  import opened Domain
  import opened Store
  import opened AssetTransferService
  import opened OrderMatching

  lemma ProductMonotone(x: real, y: real, z: real)
    requires 0.0 <= x <= y && z >= 0.0
    ensures x * z <= y * z
  {
  }

  /**
   * When the prices cross, the trade value never exceeds the buyer's escrow,
   * so a shortfall is never more than the commission.
   */
  lemma ShortfallAtMostCommission(buy: Order, sell: Order)
    requires buy.price >= sell.price > 0.0 && buy.amount > 0.0 && sell.amount > 0.0
    ensures Terms(buy, sell).totalValue <= Value(buy)
    ensures BuyerAdjustment(buy, Terms(buy, sell)) >= -Terms(buy, sell).commission
  {
    var e := Terms(buy, sell);
    var p, q, a, n := sell.price, buy.price, e.amount, buy.amount;
    assert 0.0 < a by { assert a == buy.amount || a == sell.amount; }
    ProductMonotone(p, q, a);
    ProductMonotone(a, n, q);
    assert a * q == q * a && n * q == q * n;
    assert e.totalValue == p * a && Value(buy) == q * n;
  }

  /**
   * A settlement between a buy and a sell order moves cash between the two
   * users only: the buyer's equity (balance plus escrow) falls by the trade
   * value and the commission, the seller's rises by the trade value.
   */
  lemma SettleMovesCash(t: Tables, buyId: OrderId, sellId: OrderId, u: UserId)
    requires Settle(t, buyId, sellId).result.Pass?
    requires t.orders[buyId].side == Buy && t.orders[sellId].side == Sell
    ensures var buy, sell := t.orders[buyId], t.orders[sellId];
      var e := Terms(buy, sell);
      Equity(Settle(t, buyId, sellId).tables, u) == Equity(t, u)
        - (if u == buy.user then e.totalValue + e.commission else 0.0)
        + (if u == sell.user then e.totalValue else 0.0)
  {
    var buy, sell := t.orders[buyId], t.orders[sellId];
    var once := MarkFilled(t.orders, buyId);
    var r := CashEscrow(u);
    TotalReservedUpdate(t.orders, buyId, buy.(status := Filled), r);
    assert once[sellId] == sell;
    TotalReservedUpdate(once, sellId, sell.(status := Filled), r);
  }

  /** Buyer's net cost less seller's receipt is exactly the commission. */
  lemma SettleLosesOnlyCommission(t: Tables, buyId: OrderId, sellId: OrderId)
    requires Settle(t, buyId, sellId).result.Pass?
    requires t.orders[buyId].side == Buy && t.orders[sellId].side == Sell
    requires t.orders[buyId].user != t.orders[sellId].user
    ensures var buyer, seller, after := t.orders[buyId].user, t.orders[sellId].user, Settle(t, buyId, sellId).tables;
      (Equity(t, buyer) - Equity(after, buyer)) - (Equity(after, seller) - Equity(t, seller))
        == Terms(t.orders[buyId], t.orders[sellId]).commission
  {
    SettleMovesCash(t, buyId, sellId, t.orders[buyId].user);
    SettleMovesCash(t, buyId, sellId, t.orders[sellId].user);
  }

  /**
   * The effect of a successful settlement on each table: balances move by the
   * buyer's adjustment and the seller's total value, the buyer's holding
   * gains the execution amount (created with nothing locked when absent),
   * the seller's locked quantity loses it, no other holding changes, and
   * both orders are Filled whatever their amounts.
   */
  lemma SettleEffects(t: Tables, buyId: OrderId, sellId: OrderId)
    requires Settle(t, buyId, sellId).result.Pass?
    ensures var buy, sell, after := t.orders[buyId], t.orders[sellId], Settle(t, buyId, sellId).tables;
      var e := Terms(buy, sell);
      && after.balances.Keys == t.balances.Keys
      && (forall u :: u in t.balances ==>
            after.balances[u] == t.balances[u]
              + (if u == buy.user then Value(buy) - e.totalValue - e.commission else 0.0)
              + (if u == sell.user then e.totalValue else 0.0))
      && after.assets.Keys == t.assets.Keys + {HoldingOf(buy)}
      && (forall k :: k in t.assets && k != HoldingOf(buy) && k != HoldingOf(sell) ==> after.assets[k] == t.assets[k])
      && (HoldingOf(buy) != HoldingOf(sell) ==>
            && HoldingOf(sell) in t.assets
            && after.assets[HoldingOf(buy)] ==
                 (if HoldingOf(buy) in t.assets then Asset(t.assets[HoldingOf(buy)].amount + e.amount, t.assets[HoldingOf(buy)].locked)
                  else Asset(e.amount, 0.0))
            && after.assets[HoldingOf(sell)] == Asset(t.assets[HoldingOf(sell)].amount, t.assets[HoldingOf(sell)].locked - e.amount))
      && (HoldingOf(buy) == HoldingOf(sell) && HoldingOf(buy) in t.assets ==>
            after.assets[HoldingOf(buy)] == Asset(t.assets[HoldingOf(buy)].amount + e.amount, t.assets[HoldingOf(buy)].locked - e.amount))
      && after.orders == MarkFilled(MarkFilled(t.orders, buyId), sellId)
  {
    var buy, sell := t.orders[buyId], t.orders[sellId];
    var e := Terms(buy, sell);
    var balances := SettleBalances(t.balances, buy, sell, e);
    var credited := Credited(t.assets, HoldingOf(buy), e.amount);
    var debited := DebitedLocked(credited, HoldingOf(sell), e.amount);
    assert balances.Ok? && debited.Ok?;
    assert Settle(t, buyId, sellId).tables == Tables(balances.value, debited.value, MarkFilled(MarkFilled(t.orders, buyId), sellId));
  }

  /**
   * When the buy order is at least as large as the sell order, the
   * settlement keeps the ledger invariant.
   */
  lemma SettleKeepsValid(t: Tables, buyId: OrderId, sellId: OrderId)
    requires t.Valid()
    requires buyId < |t.orders| && sellId < |t.orders|
    requires t.orders[buyId].side == Buy && t.orders[sellId].side == Sell
    requires t.orders[buyId].amount >= t.orders[sellId].amount
    ensures Settle(t, buyId, sellId).tables.Valid()
  {
    var s := Settle(t, buyId, sellId);
    if s.result.Pass? {
      var buy, sell := t.orders[buyId], t.orders[sellId];
      var e := Terms(buy, sell);
      PositiveProduct(sell.price, e.amount);
      SettledBalancesSound(t.balances, buy, sell, e);
      SettledAssetsSound(t.assets, HoldingOf(buy), HoldingOf(sell), e.amount);
      PositiveAfterMarks(t.orders, buyId, sellId);
      assert e.amount == sell.amount;
      LocksAfterTrade(t, buyId, sellId, s.tables.balances, s.tables.assets);
    }
  }

  /** Settling leaves no balance negative: a shortfall is only debited when the balance covers it. */
  lemma SettledBalancesSound(balances: map<UserId, real>, buy: Order, sell: Order, e: ExecutionTerms)
    requires forall u :: u in balances ==> balances[u] >= 0.0
    requires e.totalValue >= 0.0
    requires SettleBalances(balances, buy, sell, e).Ok?
    ensures forall u :: u in SettleBalances(balances, buy, sell, e).value ==> SettleBalances(balances, buy, sell, e).value[u] >= 0.0
  {
  }

  /** Crediting one holding and debiting a locked quantity leaves no quantity negative. */
  lemma SettledAssetsSound(assets: map<AssetKey, Asset>, to: AssetKey, from: AssetKey, amount: real)
    requires forall k :: k in assets ==> assets[k].amount >= 0.0 && assets[k].locked >= 0.0
    requires amount >= 0.0
    requires DebitedLocked(Credited(assets, to, amount), from, amount).Ok?
    ensures var after := DebitedLocked(Credited(assets, to, amount), from, amount).value;
      && (forall k :: k in after ==> after[k].amount >= 0.0 && after[k].locked >= 0.0)
      && assets.Keys <= after.Keys
      && forall k :: k in after ==>
           after[k].locked == (if k in assets then assets[k].locked else 0.0) - (if k == from then amount else 0.0)
  {
  }

  /**
   * When the buy order is the smaller one, both orders are closed but only the
   * buy amount leaves the seller's locked quantity: the rest stays locked with
   * no open order behind it, so the invariant no longer holds.
   */
  lemma SettleStrandsRemainder(t: Tables, buyId: OrderId, sellId: OrderId)
    requires t.Valid()
    requires Settle(t, buyId, sellId).result.Pass?
    requires t.orders[buyId].side == Buy && t.orders[sellId].side == Sell
    requires t.orders[buyId].amount < t.orders[sellId].amount
    ensures var sell, after := t.orders[sellId], Settle(t, buyId, sellId).tables;
      && HoldingOf(sell) in after.assets
      && after.assets[HoldingOf(sell)].locked
           == TotalReserved(after.orders, AssetReservation(HoldingOf(sell))) + (sell.amount - t.orders[buyId].amount)
      && !after.Valid()
  {
    var buy, sell := t.orders[buyId], t.orders[sellId];
    var key := HoldingOf(sell);
    var r := AssetReservation(key);
    var once := MarkFilled(t.orders, buyId);
    TotalReservedUpdate(t.orders, buyId, buy.(status := Filled), r);
    assert once[sellId] == sell;
    TotalReservedUpdate(once, sellId, sell.(status := Filled), r);
  }
}

=== FILE: order_service.dfy ===
/**
 * Order placement, filling and cancellation. Each operation is a method that
 * rewrites the ledger's rows step by step, proved equal to a function from the
 * tables before to the outcome and the tables after; the properties of those
 * functions are proved in OrderServiceProofs.
 */
module OrderService {
  import opened Domain
  import opened Store
  import opened OrderBook
  import opened AssetTransferService

  /** A sell order's reservation: `amount` moves from the free quantity to the locked one. */
  function Reserve(a: Asset, amount: real): (r: Asset)
    ensures r.amount + r.locked == a.amount + a.locked
    ensures r.locked == a.locked + amount
  {
    Asset(a.amount - amount, a.locked + amount)
  }

  /** A cancelled sell order's release: `amount` moves back from the locked quantity. */
  function Release(a: Asset, amount: real): (r: Asset)
    ensures r.amount + r.locked == a.amount + a.locked
    ensures Reserve(r, amount) == a
  {
    Asset(a.amount + amount, a.locked - amount)
  }

  /** What a fill takes from the seller's holding: its locked quantity falls, when the holding exists. */
  function SpendLocked(assets: map<AssetKey, Asset>, key: AssetKey, amount: real): (r: map<AssetKey, Asset>)
    ensures r.Keys == assets.Keys
    ensures key in assets ==> r[key] == assets[key].(locked := assets[key].locked - amount)
    ensures forall k :: k in assets && k != key ==> r[k] == assets[k]
  {
    if key in assets then assets[key := assets[key].(locked := assets[key].locked - amount)] else assets
  }

  /**
   * The balances after a fill credits the buyer's `refund` (when positive) and
   * the seller's `total`, each added to the balance as it stands when written.
   */
  function FillBalances(balances: map<UserId, real>, buyer: UserId, seller: UserId, refund: real, total: real): (r: map<UserId, real>)
    requires buyer in balances && seller in balances
    ensures r.Keys == balances.Keys
    ensures forall u :: u in balances ==>
      r[u] == balances[u] + (if u == buyer && refund > 0.0 then refund else 0.0) + (if u == seller then total else 0.0)
  {
    var afterBuyer := if refund > 0.0 then balances[buyer := balances[buyer] + refund] else balances;
    afterBuyer[seller := afterBuyer[seller] + total]
  }

  /**
   * The balances as `fillOrder` computes them: both user rows are loaded
   * before either is written, and each write stores its own loaded copy.
   */
  function FillBalancesAsWritten(balances: map<UserId, real>, buyer: UserId, seller: UserId, refund: real, total: real): (r: map<UserId, real>)
    requires buyer in balances && seller in balances
    ensures r.Keys == balances.Keys
    ensures buyer != seller ==> r == FillBalances(balances, buyer, seller, refund, total)
    ensures buyer == seller && refund > 0.0 ==> r[buyer] == FillBalances(balances, buyer, seller, refund, total)[buyer] - refund
    ensures buyer == seller ==> r == balances[seller := balances[seller] + total]
  {
    var buyerBalance := balances[buyer];
    var sellerBalance := balances[seller];
    var afterBuyer := if refund > 0.0 then balances[buyer := buyerBalance + refund] else balances;
    afterBuyer[seller := sellerBalance + total]
  }

  /** A user who buys from their own sell order: the refund written first is overwritten. */
  lemma SelfTradeLosesRefund()
    ensures FillBalancesAsWritten(map[7 := 800.0], 7, 7, 98.5, 100.0)[7] == 900.0
    ensures FillBalances(map[7 := 800.0], 7, 7, 98.5, 100.0)[7] == 998.5
  {
  }

  /**
   * What the buyer's escrow leaves after paying the trade value (the sell
   * order's price times its amount) and the commission on it; it is never
   * negative exactly when the escrow covers 1.015 times the sell value.
   */
  function FillRefund(buy: Order, sell: Order): (r: real)
    ensures r >= 0.0 <==> Value(buy) >= (1.0 + CommissionRate) * Value(sell)
    ensures r + Value(sell) + CommissionRate * Value(sell) == Value(buy)
  {
    Value(buy) - (Value(sell) + CommissionRate * Value(sell))
  }

  /**
   * `fillOrder`: fills the buy order `buyId` against the sell order `sellId`
   * for the sell order's whole amount at the sell order's price. Every failure
   * is detected before the first write, so a failed fill commits nothing.
   */
  function Fill(t: Tables, buyId: OrderId, sellId: OrderId): (s: Transition<Outcome>)
    ensures s.result.Fail? ==> s.tables == t
    ensures buyId >= |t.orders| || sellId >= |t.orders| ==> s.result == Fail(OrderNotFound)
    ensures buyId < |t.orders| && sellId < |t.orders| && (!IsOpen(t.orders[buyId]) || !IsOpen(t.orders[sellId]))
      ==> s.result == Fail(OrderNotFillable)
    ensures buyId < |t.orders| && sellId < |t.orders| && IsOpen(t.orders[buyId]) && IsOpen(t.orders[sellId])
      && (t.orders[buyId].user !in t.balances || t.orders[sellId].user !in t.balances)
      ==> s.result == Fail(UserNotFound)
    ensures buyId < |t.orders| && sellId < |t.orders| && IsOpen(t.orders[buyId]) && IsOpen(t.orders[sellId])
      && t.orders[buyId].user in t.balances && t.orders[sellId].user in t.balances
      && FillRefund(t.orders[buyId], t.orders[sellId]) < 0.0
      ==> s.result == Fail(InsufficientBalanceForTrade)
    ensures s.result.Pass? <==>
      && buyId < |t.orders| && sellId < |t.orders| && IsOpen(t.orders[buyId]) && IsOpen(t.orders[sellId])
      && t.orders[buyId].user in t.balances && t.orders[sellId].user in t.balances
      && FillRefund(t.orders[buyId], t.orders[sellId]) >= 0.0
    ensures s.result.Pass? ==> |s.tables.orders| == |t.orders|
    ensures s.result.Pass? ==> s.tables.orders[buyId].status == Filled && s.tables.orders[sellId].status == Filled
  {
    if buyId >= |t.orders| || sellId >= |t.orders| then Transition(Fail(OrderNotFound), t)
    else
      var buy, sell := t.orders[buyId], t.orders[sellId];
      if !IsOpen(buy) || !IsOpen(sell) then Transition(Fail(OrderNotFillable), t)
      else if buy.user !in t.balances || sell.user !in t.balances then Transition(Fail(UserNotFound), t)
      else
        var refund := FillRefund(buy, sell);
        if refund < 0.0 then Transition(Fail(InsufficientBalanceForTrade), t)
        else
          var balances := FillBalances(t.balances, buy.user, sell.user, refund, Value(sell));
          var orders := MarkFilled(MarkFilled(t.orders, buyId), sellId);
          var assets := SpendLocked(Credited(t.assets, HoldingOf(buy), sell.amount), HoldingOf(sell), sell.amount);
          Transition(Pass, Tables(balances, assets, orders))
  }

  /**
   * The new order `placed` (the last row) is filled against the counterparty
   * the lookup finds, if any. A failed fill is swallowed: the new order then
   * stays Open and the tables stay as placed.
   */
  function MatchPlaced(placed: Tables, counterparty: Option<OrderId>): (r: Tables)
    requires |placed.orders| > 0
    ensures |r.orders| == |placed.orders|
    ensures counterparty.None? ==> r == placed
    ensures r.orders[|placed.orders| - 1].status == Open ==> r == placed
    ensures r == placed || r.orders[|placed.orders| - 1].status == Filled
    ensures var id := |placed.orders| - 1;
      counterparty.Some? && IsOpen(placed.orders[id]) ==>
        r == (if placed.orders[id].side == Buy then Fill(placed, id, counterparty.value) else Fill(placed, counterparty.value, id)).tables
  {
    var id := |placed.orders| - 1;
    if counterparty.None? || !IsOpen(placed.orders[id]) then placed
    else if placed.orders[id].side == Buy then Fill(placed, id, counterparty.value).tables
    else Fill(placed, counterparty.value, id).tables
  }

  /** The placement of a buy before matching: price * amount leaves the balance and an Open buy row is appended. */
  function EscrowedBuy(t: Tables, user: UserId, symbol: Symbol, price: real, amount: real): (r: Tables)
    requires user in t.balances
    ensures |r.orders| == |t.orders| + 1 && r.orders[..|t.orders|] == t.orders
    ensures r.orders[|t.orders|] == Order(user, symbol, Buy, price, amount, Open)
    ensures r.balances.Keys == t.balances.Keys && r.assets == t.assets
    ensures r.balances[user] + Value(r.orders[|t.orders|]) == t.balances[user]
    ensures forall u :: u in t.balances && u != user ==> r.balances[u] == t.balances[u]
  {
    Tables(t.balances[user := t.balances[user] - price * amount], t.assets,
      t.orders + [Order(user, symbol, Buy, price, amount, Open)])
  }

  /** The placement of a sell before matching: the amount moves to locked and an Open sell row is appended. */
  function ReservedSell(t: Tables, user: UserId, symbol: Symbol, price: real, amount: real): (r: Tables)
    requires AssetKey(user, symbol) in t.assets
    ensures |r.orders| == |t.orders| + 1 && r.orders[..|t.orders|] == t.orders
    ensures r.orders[|t.orders|] == Order(user, symbol, Sell, price, amount, Open)
    ensures r.balances == t.balances && r.assets.Keys == t.assets.Keys
    ensures var key := AssetKey(user, symbol);
      && r.assets[key].amount + r.assets[key].locked == t.assets[key].amount + t.assets[key].locked
      && r.assets[key].locked == t.assets[key].locked + r.orders[|t.orders|].amount
    ensures forall k :: k in t.assets && k != AssetKey(user, symbol) ==> r.assets[k] == t.assets[k]
  {
    var key := AssetKey(user, symbol);
    Tables(t.balances, t.assets[key := Reserve(t.assets[key], amount)],
      t.orders + [Order(user, symbol, Sell, price, amount, Open)])
  }

  /**
   * `buyOrder`: escrows price * amount of the user's cash, appends an Open buy
   * order, then tries to fill it against the oldest Open sell of the symbol
   * priced at most `price`; a failed fill leaves the placement committed.
   */
  function PlaceBuy(t: Tables, user: UserId, symbol: Symbol, price: real, amount: real): (s: Transition<Result<OrderId>>)
    ensures user !in t.balances ==> s.result == Err(UserNotFound)
    ensures user in t.balances && t.balances[user] < price * amount ==> s.result == Err(InsufficientBalance)
    ensures s.result.Ok? <==> user in t.balances && t.balances[user] >= price * amount
    ensures s.result.Err? ==> s.tables == t
    ensures s.result.Ok? ==> s.result.value == |t.orders| && |s.tables.orders| == |t.orders| + 1
  {
    if user !in t.balances then Transition(Err(UserNotFound), t)
    else if t.balances[user] < price * amount then Transition(Err(InsufficientBalance), t)
    else
      var placed := EscrowedBuy(t, user, symbol, price, amount);
      Transition(Ok(|t.orders|), MatchPlaced(placed, OldestCrossing(placed.orders, symbol, Sell, price)))
  }

  /** A buy the balance covers is placed and then matched. */
  lemma PlaceBuyCommits(t: Tables, user: UserId, symbol: Symbol, price: real, amount: real)
    requires user in t.balances && !(t.balances[user] < price * amount)
    ensures var placed := EscrowedBuy(t, user, symbol, price, amount);
      PlaceBuy(t, user, symbol, price, amount) == Transition(Ok(|t.orders|), MatchPlaced(placed, OldestCrossing(placed.orders, symbol, Sell, price)))
  {
  }

  /**
   * `sellOrder`: moves `amount` of the user's holding from free to locked
   * when `amount - locked` covers it, appends an Open sell order, then tries to
   * fill it against the oldest Open buy of the symbol priced at least `price`.
   */
  function PlaceSell(t: Tables, user: UserId, symbol: Symbol, price: real, amount: real): (s: Transition<Result<OrderId>>)
    ensures AssetKey(user, symbol) !in t.assets ==> s.result == Err(AssetNotFound)
    ensures s.result == Err(InsufficientAssets) <==>
      AssetKey(user, symbol) in t.assets && t.assets[AssetKey(user, symbol)].amount - t.assets[AssetKey(user, symbol)].locked < amount
    ensures s.result.Ok? <==>
      AssetKey(user, symbol) in t.assets && t.assets[AssetKey(user, symbol)].amount - t.assets[AssetKey(user, symbol)].locked >= amount
    ensures s.result.Err? ==> s.tables == t
    ensures s.result.Ok? ==> s.result.value == |t.orders| && |s.tables.orders| == |t.orders| + 1
  {
    var key := AssetKey(user, symbol);
    if key !in t.assets then Transition(Err(AssetNotFound), t)
    else if t.assets[key].amount - t.assets[key].locked < amount then Transition(Err(InsufficientAssets), t)
    else
      var placed := ReservedSell(t, user, symbol, price, amount);
      Transition(Ok(|t.orders|), MatchPlaced(placed, OldestCrossing(placed.orders, symbol, Buy, price)))
  }

  /**
   * The availability check subtracts the locked quantity from `amount`, which
   * already excludes it: a holding with 998 free and 2 locked cannot sell 997.
   */
  lemma SellCheckCountsLockedTwice()
    ensures var t := Tables(map[], map[AssetKey(2, BTC) := Asset(998.0, 2.0)], []);
      && t.assets[AssetKey(2, BTC)].amount >= 997.0
      && PlaceSell(t, 2, BTC, 100.0, 997.0).result == Err(InsufficientAssets)
  {
  }

  /**
   * `cancelOrder`: marks an Open order Cancelled and undoes its reservation
   * (a buy's escrow returns to the balance, a sell's quantity returns from
   * locked to free); any failure rolls the whole cancellation back.
   */
  function Cancel(t: Tables, id: OrderId): (s: Transition<Result<Order>>)
    ensures id >= |t.orders| ==> s.result == Err(OrderNotFound)
    ensures id < |t.orders| && !IsOpen(t.orders[id]) ==> s.result == Err(OrderNotCancellable)
    ensures id < |t.orders| && IsOpen(t.orders[id]) && t.orders[id].side == Buy && t.orders[id].user !in t.balances
      ==> s.result == Err(BuyerNotFound)
    ensures id < |t.orders| && IsOpen(t.orders[id]) && t.orders[id].side == Sell && HoldingOf(t.orders[id]) !in t.assets
      ==> s.result == Err(AssetNotFound)
    ensures s.result.Err? ==> s.tables == t
    ensures s.result.Ok? ==> id < |t.orders| && IsOpen(t.orders[id])
    ensures s.result.Ok? ==> s.tables.orders == t.orders[id := t.orders[id].(status := Cancelled)]
    ensures s.result.Ok? ==> s.result.value == t.orders[id].(status := Cancelled)
    ensures s.result.Ok? && t.orders[id].side == Buy ==>
      && t.orders[id].user in t.balances
      && s.tables.assets == t.assets
      && s.tables.balances == t.balances[t.orders[id].user := t.balances[t.orders[id].user] + Value(t.orders[id])]
    ensures s.result.Ok? && t.orders[id].side == Sell ==>
      && HoldingOf(t.orders[id]) in t.assets
      && s.tables.balances == t.balances
      && s.tables.assets == t.assets[HoldingOf(t.orders[id]) := Release(t.assets[HoldingOf(t.orders[id])], t.orders[id].amount)]
  {
    if id >= |t.orders| then Transition(Err(OrderNotFound), t)
    else
      var order := t.orders[id];
      if order.status == Filled || order.status == Cancelled then Transition(Err(OrderNotCancellable), t)
      else
        var cancelled := order.(status := Cancelled);
        var orders := t.orders[id := cancelled];
        if order.side == Buy then
          if order.user !in t.balances then Transition(Err(BuyerNotFound), t)
          else
            var balances := t.balances[order.user := t.balances[order.user] + Value(order)];
            Transition(Ok(cancelled), Tables(balances, t.assets, orders))
        else
          var key := HoldingOf(order);
          if key !in t.assets then Transition(Err(AssetNotFound), t)
          else Transition(Ok(cancelled), Tables(t.balances, t.assets[key := Release(t.assets[key], order.amount)], orders))
  }

  /** `getOpenOrders` over the ledger. */
  function OpenOrders(db: Ledger, symbol: Option<Symbol>): (r: map<OrderId, Order>)
    reads db
    ensures r == GetOpenOrders(db.orders, symbol)
  {
    GetOpenOrders(db.orders, symbol)
  }

  /** Pays the buyer's refund (when positive) and the seller's proceeds. */
  method PayParties(db: Ledger, buyer: UserId, seller: UserId, refund: real, total: real)
    requires buyer in db.balances && seller in db.balances
    modifies db`balances
    ensures db.balances == FillBalances(old(db.balances), buyer, seller, refund, total)
  {
    if refund > 0.0 {
      db.balances := db.balances[buyer := db.balances[buyer] + refund];
    }
    // Unlike `fillOrder`, the seller's balance is read after the buyer's write, so a
    // self-trade keeps the refund (`FillBalancesAsWritten` is the code as written).
    db.balances := db.balances[seller := db.balances[seller] + total];
  }

  /** Marks both orders of a fill Filled. */
  method MarkBothFilled(db: Ledger, buyId: OrderId, sellId: OrderId)
    requires buyId < |db.orders| && sellId < |db.orders|
    modifies db`orders
    ensures db.orders == MarkFilled(MarkFilled(old(db.orders), buyId), sellId)
  {
    db.orders := db.orders[buyId := db.orders[buyId].(status := Filled)];
    db.orders := db.orders[sellId := db.orders[sellId].(status := Filled)];
  }

  /** Takes the traded quantity out of the seller's locked quantity, when the holding exists. */
  method ReleaseSold(db: Ledger, key: AssetKey, quantity: real)
    modifies db`assets
    ensures db.assets == SpendLocked(old(db.assets), key, quantity)
  {
    if key in db.assets {
      var holding := db.assets[key];
      db.assets := db.assets[key := holding.(locked := holding.locked - quantity)];
    }
  }

  /** `fillOrder`: the method counterpart of `Fill`. */
  method FillOrder(db: Ledger, buyId: OrderId, sellId: OrderId) returns (r: Outcome)
    modifies db`balances, db`assets, db`orders
    ensures Transition(r, db.Snapshot()) == Fill(old(db.Snapshot()), buyId, sellId)
  {
    if buyId >= |db.orders| || sellId >= |db.orders| {
      return Fail(OrderNotFound);
    }
    var buy := db.orders[buyId];
    var sell := db.orders[sellId];
    if !IsOpen(buy) || !IsOpen(sell) {
      return Fail(OrderNotFillable);
    }
    // The trade executes at the sell order's price, for the sell order's amount.
    var quantity := sell.amount;
    var total := Value(sell);
    var commission := CommissionRate * total;
    if buy.user !in db.balances || sell.user !in db.balances {
      return Fail(UserNotFound);
    }
    var paid := Value(buy);
    var refund := paid - (total + commission);
    if refund < 0.0 {
      return Fail(InsufficientBalanceForTrade);
    }
    PayParties(db, buy.user, sell.user, refund, total);
    MarkBothFilled(db, buyId, sellId);
    CreditAsset(db, buy.user, buy.symbol, quantity);
    ReleaseSold(db, HoldingOf(sell), quantity);
    return Pass;
  }

  /** Debits the buy's cost from the user's balance and appends the Open buy row. */
  method EscrowAndRecord(db: Ledger, user: UserId, symbol: Symbol, price: real, amount: real)
    requires user in db.balances
    modifies db`balances, db`orders
    ensures db.Snapshot() == EscrowedBuy(old(db.Snapshot()), user, symbol, price, amount)
  {
    db.balances := db.balances[user := db.balances[user] - price * amount];
    db.orders := db.orders + [Order(user, symbol, Buy, price, amount, Open)];
  }

  /** Moves the sell's amount from the holding's free quantity to its locked one and appends the Open sell row. */
  method LockAndRecord(db: Ledger, user: UserId, symbol: Symbol, price: real, amount: real)
    requires AssetKey(user, symbol) in db.assets
    modifies db`assets, db`orders
    ensures db.Snapshot() == ReservedSell(old(db.Snapshot()), user, symbol, price, amount)
  {
    var key := AssetKey(user, symbol);
    var holding := db.assets[key];
    holding := holding.(amount := holding.amount - amount);
    holding := holding.(locked := holding.locked + amount);
    db.assets := db.assets[key := holding];
    db.orders := db.orders + [Order(user, symbol, Sell, price, amount, Open)];
  }

  /**
   * Tries to fill the newest order against `counterparty`, the order the
   * lookup found; a failed fill is logged and swallowed, so the placement
   * stays committed.
   */
  method MatchNewOrder(db: Ledger, counterparty: Option<OrderId>)
    requires |db.orders| > 0
    modifies db`balances, db`assets, db`orders
    ensures db.Snapshot() == MatchPlaced(old(db.Snapshot()), counterparty)
  {
    var id := |db.orders| - 1;
    if counterparty.Some? && IsOpen(db.orders[id]) {
      var filled;
      if db.orders[id].side == Buy {
        filled := FillOrder(db, id, counterparty.value);
      } else {
        filled := FillOrder(db, counterparty.value, id);
      }
    }
  }

  method BuyOrder(db: Ledger, user: UserId, symbol: Symbol, price: real, amount: real) returns (r: Result<OrderId>)
    modifies db`balances, db`assets, db`orders
    ensures Transition(r, db.Snapshot()) == PlaceBuy(old(db.Snapshot()), user, symbol, price, amount)
  {
    if user !in db.balances {
      return Err(UserNotFound);
    }
    var cost := price * amount;
    if db.balances[user] < cost {
      return Err(InsufficientBalance);
    }
    ghost var before := db.Snapshot();
    var id := |db.orders|;
    EscrowAndRecord(db, user, symbol, price, amount);
    ghost var placed := db.Snapshot();
    var matching := OldestCrossing(db.orders, symbol, Sell, price);
    MatchNewOrder(db, matching);
    PlaceBuyCommits(before, user, symbol, price, amount);
    assert placed == EscrowedBuy(before, user, symbol, price, amount);
    return Ok(id);
  }

  method SellOrder(db: Ledger, user: UserId, symbol: Symbol, price: real, amount: real) returns (r: Result<OrderId>)
    modifies db`balances, db`assets, db`orders
    ensures Transition(r, db.Snapshot()) == PlaceSell(old(db.Snapshot()), user, symbol, price, amount)
  {
    var key := AssetKey(user, symbol);
    if key !in db.assets {
      return Err(AssetNotFound);
    }
    var holding := db.assets[key];
    var available := holding.amount - holding.locked;
    if available < amount {
      return Err(InsufficientAssets);
    }
    var id := |db.orders|;
    LockAndRecord(db, user, symbol, price, amount);
    var matching := OldestCrossing(db.orders, symbol, Buy, price);
    MatchNewOrder(db, matching);
    return Ok(id);
  }

  /** `createLimitOrder`: dispatches on the order's side. */
  method CreateLimitOrder(db: Ledger, user: UserId, symbol: Symbol, side: OrderSide, price: real, amount: real) returns (r: Result<OrderId>)
    modifies db`balances, db`assets, db`orders
    ensures side == Buy ==> Transition(r, db.Snapshot()) == PlaceBuy(old(db.Snapshot()), user, symbol, price, amount)
    ensures side == Sell ==> Transition(r, db.Snapshot()) == PlaceSell(old(db.Snapshot()), user, symbol, price, amount)
  {
    if side == Buy {
      r := BuyOrder(db, user, symbol, price, amount);
    } else {
      r := SellOrder(db, user, symbol, price, amount);
    }
  }

  /** `cancelOrder`: the method counterpart of `Cancel`. */
  method CancelOrder(db: Ledger, id: OrderId) returns (r: Result<Order>)
    modifies db`balances, db`assets, db`orders
    ensures Transition(r, db.Snapshot()) == Cancel(old(db.Snapshot()), id)
  {
    ghost var before := db.Snapshot();
    if id >= |db.orders| {
      return Err(OrderNotFound);
    }
    var order := db.orders[id];
    if order.status == Filled || order.status == Cancelled {
      return Err(OrderNotCancellable);
    }
    var rollback := db.orders;
    var cancelled := order.(status := Cancelled);
    db.orders := db.orders[id := cancelled];
    if cancelled.side == Buy {
      if cancelled.user !in db.balances {
        db.orders := rollback;
        return Err(BuyerNotFound);
      }
      db.balances := db.balances[cancelled.user := db.balances[cancelled.user] + Value(cancelled)];
      assert Value(cancelled) == Value(order);
      assert Cancel(before, id) == Transition(Ok(cancelled), db.Snapshot());
    }
    if cancelled.side == Sell {
      var key := AssetKey(cancelled.user, cancelled.symbol);
      if key !in db.assets {
        db.orders := rollback;
        return Err(AssetNotFound);
      }
      var holding := db.assets[key];
      holding := holding.(amount := holding.amount + cancelled.amount);
      holding := holding.(locked := holding.locked - cancelled.amount);
      db.assets := db.assets[key := holding];
      assert holding == Release(before.assets[key], order.amount);
      assert Cancel(before, id) == Transition(Ok(cancelled), db.Snapshot());
    }
    return Ok(cancelled);
  }
}

=== FILE: order_service_proofs.dfy ===
/**
 * What the order service keeps and what it moves: every operation preserves
 * the ledger invariant, a fill moves cash between exactly two users and
 * loses only the commission, and a placement that is cancelled before it
 * fills gives back what it reserved.
 */
module OrderServiceProofs {
  import opened Domain
  import opened Store
  import opened OrderBook
  import opened AssetTransferService
  import opened OrderService

  /** A fill of an Open buy against an Open sell keeps the ledger invariant. */
  lemma FillPreservesValid(t: Tables, buyId: OrderId, sellId: OrderId)
    requires t.Valid()
    requires buyId < |t.orders| && sellId < |t.orders|
    requires t.orders[buyId].side == Buy && t.orders[sellId].side == Sell
    ensures Fill(t, buyId, sellId).tables.Valid()
  {
    var s := Fill(t, buyId, sellId);
    if s.result.Pass? {
      var buy, sell := t.orders[buyId], t.orders[sellId];
      var balances := FillBalances(t.balances, buy.user, sell.user, FillRefund(buy, sell), Value(sell));
      var assets := SpendLocked(Credited(t.assets, HoldingOf(buy), sell.amount), HoldingOf(sell), sell.amount);
      assert s.tables == Tables(balances, assets, MarkFilled(MarkFilled(t.orders, buyId), sellId));
      PositiveProduct(sell.price, sell.amount);
      assert forall u :: u in balances ==> balances[u] >= 0.0;
      PositiveAfterMarks(t.orders, buyId, sellId);
      var sellerKey := HoldingOf(sell);
      assert sellerKey in t.assets;
      TotalReservedCovers(t.orders, sellId, AssetReservation(sellerKey));
      FilledAssetsSound(t.assets, HoldingOf(buy), sellerKey, sell.amount);
      LocksAfterTrade(t, buyId, sellId, balances, assets);
    }
  }

  /** Crediting the buyer and spending the seller's locked quantity leaves no quantity negative. */
  lemma FilledAssetsSound(assets: map<AssetKey, Asset>, to: AssetKey, from: AssetKey, amount: real)
    requires forall k :: k in assets ==> assets[k].amount >= 0.0 && assets[k].locked >= 0.0
    requires amount >= 0.0 && from in assets && assets[from].locked >= amount
    ensures var after := SpendLocked(Credited(assets, to, amount), from, amount);
      && (forall k :: k in after ==> after[k].amount >= 0.0 && after[k].locked >= 0.0)
      && assets.Keys <= after.Keys
      && forall k :: k in after ==>
           after[k].locked == (if k in assets then assets[k].locked else 0.0) - (if k == from then amount else 0.0)
  {
  }

  /**
   * A fill moves cash between two users only: the buyer's equity (balance
   * plus escrow) falls by the trade value and the commission, the seller's
   * rises by the trade value, and nobody else's changes.
   */
  lemma FillMovesCash(t: Tables, buyId: OrderId, sellId: OrderId, u: UserId)
    requires Fill(t, buyId, sellId).result.Pass?
    requires t.orders[buyId].side == Buy && t.orders[sellId].side == Sell
    ensures var buy, sell := t.orders[buyId], t.orders[sellId];
      Equity(Fill(t, buyId, sellId).tables, u) == Equity(t, u)
        - (if u == buy.user then Value(sell) + CommissionRate * Value(sell) else 0.0)
        + (if u == sell.user then Value(sell) else 0.0)
  {
    var buy, sell := t.orders[buyId], t.orders[sellId];
    var once := MarkFilled(t.orders, buyId);
    var r := CashEscrow(u);
    TotalReservedUpdate(t.orders, buyId, buy.(status := Filled), r);
    assert once[sellId] == sell;
    TotalReservedUpdate(once, sellId, sell.(status := Filled), r);
  }

  /** The commission is the only cash a fill between two users takes out of their combined equity. */
  lemma FillLosesOnlyCommission(t: Tables, buyId: OrderId, sellId: OrderId)
    requires Fill(t, buyId, sellId).result.Pass?
    requires t.orders[buyId].side == Buy && t.orders[sellId].side == Sell
    requires t.orders[buyId].user != t.orders[sellId].user
    ensures var buyer, seller, after := t.orders[buyId].user, t.orders[sellId].user, Fill(t, buyId, sellId).tables;
      Equity(after, buyer) + Equity(after, seller) == Equity(t, buyer) + Equity(t, seller) - CommissionRate * Value(t.orders[sellId])
  {
    FillMovesCash(t, buyId, sellId, t.orders[buyId].user);
    FillMovesCash(t, buyId, sellId, t.orders[sellId].user);
  }

  /**
   * A fill passes only when the buyer's escrow covers the trade value plus
   * the commission; in particular an order never fills against one of the
   * same price and amount.
   */
  lemma FillNeedsMargin(t: Tables, buyId: OrderId, sellId: OrderId)
    requires buyId < |t.orders| && sellId < |t.orders|
    ensures Fill(t, buyId, sellId).result.Pass? ==>
      Value(t.orders[buyId]) >= (1.0 + CommissionRate) * Value(t.orders[sellId])
    ensures var buy, sell := t.orders[buyId], t.orders[sellId];
      IsOpen(buy) && IsOpen(sell) && buy.user in t.balances && sell.user in t.balances
      && buy.price == sell.price && buy.amount == sell.amount && Value(sell) > 0.0
      ==> Fill(t, buyId, sellId).result == Fail(InsufficientBalanceForTrade)
  {
  }

  /** On a successful fill the buyer's holding gains the sell amount and the seller's locked quantity loses it. */
  lemma FillMovesAssets(t: Tables, buyId: OrderId, sellId: OrderId)
    requires Fill(t, buyId, sellId).result.Pass?
    requires HoldingOf(t.orders[buyId]) != HoldingOf(t.orders[sellId])
    requires HoldingOf(t.orders[sellId]) in t.assets
    ensures var buy, sell, after := t.orders[buyId], t.orders[sellId], Fill(t, buyId, sellId).tables.assets;
      && Units(after, HoldingOf(buy)) == Units(t.assets, HoldingOf(buy)) + sell.amount
      && after[HoldingOf(sell)].locked == t.assets[HoldingOf(sell)].locked - sell.amount
      && after[HoldingOf(sell)].amount == t.assets[HoldingOf(sell)].amount
      && forall k :: k != HoldingOf(buy) && k != HoldingOf(sell) ==> Units(after, k) == Units(t.assets, k)
  {
    var buy, sell, after := t.orders[buyId], t.orders[sellId], Fill(t, buyId, sellId).tables.assets;
    forall k | k != HoldingOf(buy) && k != HoldingOf(sell)
      ensures Units(after, k) == Units(t.assets, k)
    {
      assert k in after <==> k in t.assets;
    }
  }

  /**
   * The whole new state after a successful fill: both rows Filled with every
   * other field kept, the buyer refunded and the seller paid the sell value,
   * the buyer's holding credited with the sell amount (created with nothing
   * locked when absent), the seller's locked quantity spent, and nothing
   * else in any table changed.
   */
  lemma FillEffects(t: Tables, buyId: OrderId, sellId: OrderId)
    requires Fill(t, buyId, sellId).result.Pass?
    ensures var buy, sell, after := t.orders[buyId], t.orders[sellId], Fill(t, buyId, sellId).tables;
      && after.orders == MarkFilled(MarkFilled(t.orders, buyId), sellId)
      && after.balances.Keys == t.balances.Keys
      && (forall u :: u in t.balances ==>
            after.balances[u] == t.balances[u]
              + (if u == buy.user then FillRefund(buy, sell) else 0.0)
              + (if u == sell.user then Value(sell) else 0.0))
      && after.assets.Keys == t.assets.Keys + {HoldingOf(buy)}
      && (forall k :: k in t.assets && k != HoldingOf(buy) && k != HoldingOf(sell) ==> after.assets[k] == t.assets[k])
      && (HoldingOf(buy) != HoldingOf(sell) ==>
            && after.assets[HoldingOf(buy)] ==
                 (if HoldingOf(buy) in t.assets then Asset(t.assets[HoldingOf(buy)].amount + sell.amount, t.assets[HoldingOf(buy)].locked)
                  else Asset(sell.amount, 0.0))
            && (HoldingOf(sell) in t.assets ==>
                  after.assets[HoldingOf(sell)] == Asset(t.assets[HoldingOf(sell)].amount, t.assets[HoldingOf(sell)].locked - sell.amount)))
      && (HoldingOf(buy) == HoldingOf(sell) ==>
            after.assets[HoldingOf(buy)] ==
              (if HoldingOf(buy) in t.assets then Asset(t.assets[HoldingOf(buy)].amount + sell.amount, t.assets[HoldingOf(buy)].locked - sell.amount)
               else Asset(sell.amount, -sell.amount)))
  {
  }

  /** The escrow step of a buy placement keeps the invariant: the cash leaves the balance for the new order. */
  lemma EscrowKeepsValid(t: Tables, user: UserId, symbol: Symbol, price: real, amount: real)
    requires t.Valid() && price > 0.0 && amount > 0.0
    requires user in t.balances && t.balances[user] >= price * amount
    ensures Tables(t.balances[user := t.balances[user] - price * amount], t.assets,
      t.orders + [Order(user, symbol, Buy, price, amount, Open)]).Valid()
  {
    var o := Order(user, symbol, Buy, price, amount, Open);
    var placed := Tables(t.balances[user := t.balances[user] - price * amount], t.assets, t.orders + [o]);
    forall k | k in t.assets
      ensures t.assets[k].locked == TotalReserved(placed.orders, AssetReservation(k))
    {
      TotalReservedAppend(t.orders, o, AssetReservation(k));
    }
    forall i | 0 <= i < |placed.orders| && IsOpen(placed.orders[i]) && placed.orders[i].side == Sell
      ensures HoldingOf(placed.orders[i]) in placed.assets
    {
      assert placed.orders[i] == t.orders[i];
    }
  }

  /** The escrow step of a buy placement only moves cash from the balance into the new order's escrow: no user's equity changes. */
  lemma {:induction false} EscrowKeepsEquity(t: Tables, user: UserId, symbol: Symbol, price: real, amount: real, u: UserId)
    requires user in t.balances
    ensures Equity(EscrowedBuy(t, user, symbol, price, amount), u) == Equity(t, u)
  {
    var placed := EscrowedBuy(t, user, symbol, price, amount);
    TotalReservedAppend(t.orders, placed.orders[|t.orders|], CashEscrow(u));
    assert placed.orders == t.orders + [placed.orders[|t.orders|]];
  }

  /** The reservation step of a sell placement keeps the invariant: the quantity moves to locked for the new order. */
  lemma ReservationKeepsValid(t: Tables, user: UserId, symbol: Symbol, price: real, amount: real)
    requires t.Valid() && price > 0.0 && amount > 0.0
    requires AssetKey(user, symbol) in t.assets
    requires t.assets[AssetKey(user, symbol)].amount - t.assets[AssetKey(user, symbol)].locked >= amount
    ensures var key := AssetKey(user, symbol);
      Tables(t.balances, t.assets[key := Reserve(t.assets[key], amount)],
        t.orders + [Order(user, symbol, Sell, price, amount, Open)]).Valid()
  {
    var key := AssetKey(user, symbol);
    var o := Order(user, symbol, Sell, price, amount, Open);
    var placed := Tables(t.balances, t.assets[key := Reserve(t.assets[key], amount)], t.orders + [o]);
    forall k | k in placed.assets
      ensures placed.assets[k].locked == TotalReserved(placed.orders, AssetReservation(k))
    {
      TotalReservedAppend(t.orders, o, AssetReservation(k));
    }
    forall i | 0 <= i < |placed.orders| && IsOpen(placed.orders[i]) && placed.orders[i].side == Sell
      ensures HoldingOf(placed.orders[i]) in placed.assets
    {
      if i < |t.orders| {
        assert placed.orders[i] == t.orders[i];
      }
    }
  }

  /** Matching a freshly placed order keeps the invariant: the lookup only pairs a buy with a sell. */
  lemma MatchKeepsValid(placed: Tables, counterparty: Option<OrderId>, symbol: Symbol, price: real)
    requires placed.Valid() && |placed.orders| > 0
    requires var side := placed.orders[|placed.orders| - 1].side;
      counterparty == OldestCrossing(placed.orders, symbol, if side == Buy then Sell else Buy, price)
    ensures MatchPlaced(placed, counterparty).Valid()
  {
    var id := |placed.orders| - 1;
    if counterparty.Some? && IsOpen(placed.orders[id]) {
      if placed.orders[id].side == Buy {
        FillPreservesValid(placed, id, counterparty.value);
      } else {
        FillPreservesValid(placed, counterparty.value, id);
      }
    }
  }

  /** A buy placement keeps the invariant, filled or not. */
  lemma PlaceBuyPreservesValid(t: Tables, user: UserId, symbol: Symbol, price: real, amount: real)
    requires t.Valid() && price > 0.0 && amount > 0.0
    ensures PlaceBuy(t, user, symbol, price, amount).tables.Valid()
  {
    if user in t.balances && t.balances[user] >= price * amount {
      EscrowKeepsValid(t, user, symbol, price, amount);
      var placed := EscrowedBuy(t, user, symbol, price, amount);
      assert PlaceBuy(t, user, symbol, price, amount).tables == MatchPlaced(placed, OldestCrossing(placed.orders, symbol, Sell, price));
      MatchKeepsValid(placed, OldestCrossing(placed.orders, symbol, Sell, price), symbol, price);
    } else {
      assert PlaceBuy(t, user, symbol, price, amount).tables == t;
    }
  }

  /** A sell placement keeps the invariant, filled or not. */
  lemma PlaceSellPreservesValid(t: Tables, user: UserId, symbol: Symbol, price: real, amount: real)
    requires t.Valid() && price > 0.0 && amount > 0.0
    ensures PlaceSell(t, user, symbol, price, amount).tables.Valid()
  {
    var key := AssetKey(user, symbol);
    if key in t.assets && t.assets[key].amount - t.assets[key].locked >= amount {
      ReservationKeepsValid(t, user, symbol, price, amount);
      var placed := ReservedSell(t, user, symbol, price, amount);
      assert PlaceSell(t, user, symbol, price, amount).tables == MatchPlaced(placed, OldestCrossing(placed.orders, symbol, Buy, price));
      MatchKeepsValid(placed, OldestCrossing(placed.orders, symbol, Buy, price), symbol, price);
    } else {
      assert PlaceSell(t, user, symbol, price, amount).tables == t;
    }
  }

  /**
   * A successful buy placement escrows exactly price * amount and appends the
   * order; unless the order went on to fill, that is all it changed.
   */
  lemma PlaceBuyEscrows(t: Tables, user: UserId, symbol: Symbol, price: real, amount: real)
    requires PlaceBuy(t, user, symbol, price, amount).result.Ok?
    ensures var s := PlaceBuy(t, user, symbol, price, amount);
      && s.result.value < |s.tables.orders|
      && s.tables.orders[s.result.value] == Order(user, symbol, Buy, price, amount, s.tables.orders[s.result.value].status)
      && (s.tables.orders[s.result.value].status == Open ==>
            s.tables.balances == t.balances[user := t.balances[user] - price * amount]
            && s.tables.assets == t.assets
            && s.tables.orders == t.orders + [Order(user, symbol, Buy, price, amount, Open)])
  {
  }

  /**
   * A successful sell placement moves exactly `amount` of the holding from
   * free to locked (so free plus locked is unchanged) and appends the order;
   * unless the order went on to fill, that is all it changed.
   */
  lemma PlaceSellLocks(t: Tables, user: UserId, symbol: Symbol, price: real, amount: real)
    requires PlaceSell(t, user, symbol, price, amount).result.Ok?
    ensures var s, key := PlaceSell(t, user, symbol, price, amount), AssetKey(user, symbol);
      && key in t.assets
      && s.result.value < |s.tables.orders|
      && s.tables.orders[s.result.value] == Order(user, symbol, Sell, price, amount, s.tables.orders[s.result.value].status)
      && (s.tables.orders[s.result.value].status == Open ==>
            && s.tables.balances == t.balances
            && s.tables.assets == t.assets[key := Asset(t.assets[key].amount - amount, t.assets[key].locked + amount)]
            && s.tables.orders == t.orders + [Order(user, symbol, Sell, price, amount, Open)])
  {
  }

  /** Cancelling keeps the invariant. */
  lemma CancelPreservesValid(t: Tables, id: OrderId)
    requires t.Valid()
    ensures Cancel(t, id).tables.Valid()
  {
    var s := Cancel(t, id);
    if s.result.Ok? {
      var o := t.orders[id];
      var after := s.tables;
      forall k | k in after.assets
        ensures after.assets[k].locked == TotalReserved(after.orders, AssetReservation(k))
      {
        TotalReservedUpdate(t.orders, id, o.(status := Cancelled), AssetReservation(k));
      }
      if o.side == Buy {
        PositiveProduct(o.price, o.amount);
      } else {
        TotalReservedCovers(t.orders, id, AssetReservation(HoldingOf(o)));
      }
      forall i | 0 <= i < |after.orders|
        ensures after.orders[i].price == t.orders[i].price && after.orders[i].amount == t.orders[i].amount
      {
      }
      forall i | 0 <= i < |after.orders| && IsOpen(after.orders[i]) && after.orders[i].side == Sell
        ensures HoldingOf(after.orders[i]) in after.assets
      {
        assert after.orders[i] == t.orders[i];
      }
    }
  }

  /** Under the invariant an Open order can always be cancelled: the rollback branches are unreachable. */
  lemma CancelOpenSucceeds(t: Tables, id: OrderId)
    requires t.Valid() && id < |t.orders| && IsOpen(t.orders[id])
    requires t.orders[id].side == Buy ==> t.orders[id].user in t.balances
    ensures Cancel(t, id).result.Ok?
  {
  }

  /** Cancelling moves a buy order's escrow back to the balance, so nobody's equity changes. */
  lemma {:induction false} CancelKeepsEquity(t: Tables, id: OrderId, u: UserId)
    ensures Equity(Cancel(t, id).tables, u) == Equity(t, u)
  {
    var s := Cancel(t, id);
    if s.result.Ok? {
      TotalReservedUpdate(t.orders, id, t.orders[id].(status := Cancelled), CashEscrow(u));
    }
  }

  /** Placing a buy order and cancelling it before it fills restores the balances and holdings exactly. */
  lemma BuyThenCancelRestores(t: Tables, user: UserId, symbol: Symbol, price: real, amount: real)
    requires PlaceBuy(t, user, symbol, price, amount).result.Ok?
    requires var s := PlaceBuy(t, user, symbol, price, amount);
      s.tables.orders[s.result.value].status == Open
    ensures var s := PlaceBuy(t, user, symbol, price, amount);
      var c := Cancel(s.tables, s.result.value);
      c.result.Ok? && c.tables.balances == t.balances && c.tables.assets == t.assets
  {
    PlaceBuyEscrows(t, user, symbol, price, amount);
    var s := PlaceBuy(t, user, symbol, price, amount);
    var o := Order(user, symbol, Buy, price, amount, Open);
    assert s.tables.orders[s.result.value] == o;
    assert Value(o) == price * amount;
    assert Cancel(s.tables, s.result.value).tables.balances == s.tables.balances[user := s.tables.balances[user] + Value(o)];
  }

  /** Placing a sell order and cancelling it before it fills restores the holdings exactly. */
  lemma SellThenCancelRestores(t: Tables, user: UserId, symbol: Symbol, price: real, amount: real)
    requires PlaceSell(t, user, symbol, price, amount).result.Ok?
    requires var s := PlaceSell(t, user, symbol, price, amount);
      s.tables.orders[s.result.value].status == Open
    ensures var s := PlaceSell(t, user, symbol, price, amount);
      var c := Cancel(s.tables, s.result.value);
      c.result.Ok? && c.tables.balances == t.balances && c.tables.assets == t.assets
  {
    PlaceSellLocks(t, user, symbol, price, amount);
  }
}

=== FILE: scenarios.dfy ===
/**
 * Concrete runs of the order service on a fresh ledger: placing, refusing,
 * cancelling and filling orders with the figures of the service's own
 * feature tests, and one run of the stand-alone settlement routine. User 1
 * is the buyer, user 2 the seller.
 */
module Scenarios {
  import opened Domain
  import opened Store
  import opened OrderService
  import opened OrderBook
  import opened AssetTransferService
  import opened OrderMatching

  /** The two users' opening balances and the seller's opening BTC holding. */
  const Funded: map<UserId, real> := map[1 := 1000.0, 2 := 100.0]
  const Stocked: map<AssetKey, Asset> := map[AssetKey(2, BTC) := Asset(1000.0, 0.0)]
  /** The seller's holding once 2 BTC are reserved, and the resting sell order of 2 at 100 behind it. */
  const Locked: map<AssetKey, Asset> := map[AssetKey(2, BTC) := Asset(998.0, 2.0)]
  const RestingSell: Order := Order(2, BTC, Sell, 100.0, 2.0, Open)

  /** On an empty book, the sell of 2 at 100 finds no buyer and rests with 2 BTC locked. */
  lemma RestingSellPlaced()
    ensures PlaceSell(Tables(Funded, Stocked, []), 2, BTC, 100.0, 2.0) == Transition(Ok(0), Tables(Funded, Locked, [RestingSell]))
  {
    assert Reserve(Stocked[AssetKey(2, BTC)], 2.0) == Asset(998.0, 2.0);
    assert Stocked[AssetKey(2, BTC) := Asset(998.0, 2.0)] == Locked;
  }

  /** A buy of 2 at 100 against the resting sell: escrow 200 is short of 200 plus 3 commission, so it rests. */
  lemma EqualBuyRests()
    ensures PlaceBuy(Tables(Funded, Locked, [RestingSell]), 1, BTC, 100.0, 2.0)
      == Transition(Ok(1), Tables(map[1 := 800.0, 2 := 100.0], Locked, [RestingSell, Order(1, BTC, Buy, 100.0, 2.0, Open)]))
  {
    var placed := EscrowedBuy(Tables(Funded, Locked, [RestingSell]), 1, BTC, 100.0, 2.0);
    assert placed.balances == map[1 := 800.0, 2 := 100.0];
    assert OldestCrossing(placed.orders, BTC, Sell, 100.0) == Some(0);
    assert FillRefund(placed.orders[1], placed.orders[0]) == -3.0;
  }

  /** A buy of 2 at 110 against the resting sell fills: refund 17, proceeds 200, 2 BTC move. */
  lemma CrossingBuyFilled()
    ensures PlaceBuy(Tables(Funded, Locked, [RestingSell]), 1, BTC, 110.0, 2.0)
      == Transition(Ok(1), Tables(map[1 := 797.0, 2 := 300.0],
           map[AssetKey(2, BTC) := Asset(998.0, 0.0), AssetKey(1, BTC) := Asset(2.0, 0.0)],
           [RestingSell.(status := Filled), Order(1, BTC, Buy, 110.0, 2.0, Filled)]))
  {
    var placed := EscrowedBuy(Tables(Funded, Locked, [RestingSell]), 1, BTC, 110.0, 2.0);
    assert placed.balances == map[1 := 780.0, 2 := 100.0];
    assert OldestCrossing(placed.orders, BTC, Sell, 110.0) == Some(0);
    assert FillRefund(placed.orders[1], placed.orders[0]) == 17.0;
    assert FillBalances(placed.balances, 1, 2, 17.0, 200.0) == map[1 := 797.0, 2 := 300.0];
    assert Credited(Locked, AssetKey(1, BTC), 2.0) == map[AssetKey(2, BTC) := Asset(998.0, 2.0), AssetKey(1, BTC) := Asset(2.0, 0.0)];
  }

  /** A buy of 1 BTC at 10000 with a balance of 10000 escrows the whole balance and leaves the order Open. */
  method BuyEscrowsBalance() returns (r: Result<OrderId>, status: OrderStatus, balance: real)
    ensures r == Ok(0) && status == Open && balance == 0.0
  {
    var db := new Ledger(map[1 := 10000.0], map[], []);
    r := CreateLimitOrder(db, 1, BTC, Buy, 10000.0, 1.0);
    status := db.orders[0].status;
    balance := db.balances[1];
  }

  /** A sell of 1 BTC out of a holding of 1000 locks 1 and leaves the order Open. */
  method SellLocksQuantity() returns (r: Result<OrderId>, status: OrderStatus, holding: Asset)
    ensures r == Ok(0) && status == Open && holding == Asset(999.0, 1.0)
  {
    var db := new Ledger(map[2 := 100.0], map[AssetKey(2, BTC) := Asset(1000.0, 0.0)], []);
    r := CreateLimitOrder(db, 2, BTC, Sell, 10000.0, 1.0);
    status := db.orders[0].status;
    holding := db.assets[AssetKey(2, BTC)];
  }

  /** A buy worth more than the balance is refused and nothing is recorded. */
  method BuyBeyondBalanceRefused() returns (r: Result<OrderId>, orders: nat, balance: real)
    ensures r == Err(InsufficientBalance) && orders == 0 && balance == 100.0
  {
    var db := new Ledger(map[1 := 100.0], map[], []);
    r := CreateLimitOrder(db, 1, BTC, Buy, 10000.0, 1.0);
    orders := |db.orders|;
    balance := db.balances[1];
  }

  /** Cancelling an unfilled buy returns its escrow: 10000, then 9000, then 10000 again. */
  method CancelReturnsEscrow() returns (placed: real, cancelled: Result<Order>, restored: real)
    ensures placed == 9000.0 && restored == 10000.0
    ensures cancelled.Ok? && cancelled.value.status == Cancelled
  {
    var db := new Ledger(map[1 := 10000.0], map[], []);
    var r := CreateLimitOrder(db, 1, BTC, Buy, 1000.0, 1.0);
    placed := db.balances[1];
    cancelled := CancelOrder(db, 0);
    restored := db.balances[1];
  }

  /**
   * A buy at the same price and amount as the resting sell does not fill: the
   * escrow of 200 falls short of the 200 plus 3 commission, the failed fill is
   * swallowed, and both orders stay Open with their reservations in place.
   */
  method EqualPriceDoesNotFill() returns (buyStatus: OrderStatus, sellStatus: OrderStatus, buyer: real, seller: real, holding: Asset)
    ensures buyStatus == Open && sellStatus == Open
    ensures buyer == 800.0 && seller == 100.0 && holding == Asset(998.0, 2.0)
  {
    var db := new Ledger(Funded, Stocked, []);
    RestingSellPlaced();
    var s := CreateLimitOrder(db, 2, BTC, Sell, 100.0, 2.0);
    EqualBuyRests();
    var b := CreateLimitOrder(db, 1, BTC, Buy, 100.0, 2.0);
    sellStatus := db.orders[0].status;
    buyStatus := db.orders[1].status;
    buyer := db.balances[1];
    seller := db.balances[2];
    holding := db.assets[AssetKey(2, BTC)];
  }

  /**
   * A buy at 110 against a resting sell of 2 at 100 fills: the buyer escrows
   * 220, pays 200 and a commission of 3 and gets 17 back; the seller receives
   * 200; the two BTC move from the seller's locked quantity to the buyer.
   */
  method CrossingBuyFills() returns (buyStatus: OrderStatus, sellStatus: OrderStatus, buyer: real, seller: real, bought: Asset, sold: Asset)
    ensures buyStatus == Filled && sellStatus == Filled
    ensures buyer == 797.0 && seller == 300.0
    ensures bought == Asset(2.0, 0.0) && sold == Asset(998.0, 0.0)
  {
    var db := new Ledger(Funded, Stocked, []);
    RestingSellPlaced();
    var s := CreateLimitOrder(db, 2, BTC, Sell, 100.0, 2.0);
    CrossingBuyFilled();
    var b := CreateLimitOrder(db, 1, BTC, Buy, 110.0, 2.0);
    sellStatus := db.orders[0].status;
    buyStatus := db.orders[1].status;
    buyer := db.balances[1];
    seller := db.balances[2];
    bought := db.assets[AssetKey(1, BTC)];
    sold := db.assets[AssetKey(2, BTC)];
  }

  /**
   * The settlement routine on a resting sell of 2 at 100 and a buy of 1 at
   * 100: it trades 1, takes the 1.5 commission from the buyer's balance, pays
   * the seller 100 and closes both orders, leaving 1 BTC locked behind a
   * Filled order. Order row 0 is locked before row 1.
   */
  method PartialSettlementStrandsLock() returns (r: Outcome, lockOrder: seq<nat>, buyer: real, seller: real, bought: Asset, sold: Asset, sellStatus: OrderStatus)
    ensures r == Pass && lockOrder == [0, 1]
    ensures buyer == 898.5 && seller == 100.0
    ensures bought == Asset(1.0, 0.0) && sold == Asset(998.0, 1.0) && sellStatus == Filled
  {
    var db := new Ledger(
      map[1 := 900.0, 2 := 0.0],
      map[AssetKey(2, BTC) := Asset(998.0, 2.0)],
      [Order(2, BTC, Sell, 100.0, 2.0, Open), Order(1, BTC, Buy, 100.0, 1.0, Open)]);
    var matching := new OrderMatchingService(db, 1, 0);
    r := matching.Execute();
    lockOrder := matching.orderLockOrder;
    buyer := db.balances[1];
    seller := db.balances[2];
    bought := db.assets[AssetKey(1, BTC)];
    sold := db.assets[AssetKey(2, BTC)];
    sellStatus := db.orders[0].status;
  }
}

=== FILE: store.dfy ===
/**
 * The three tables the services mutate (users' cash balances, asset holdings
 * and orders), the invariant every committed state keeps, and the sums that
 * relate the stored reservations to the open orders.
 */
module Store {
  import opened Domain

  /** What an open order holds back: a seller's quantity of one holding, or a buyer's escrowed cash. */
  datatype Reservation = AssetReservation(key: AssetKey) | CashEscrow(user: UserId)

  /** The part of `r` that order `o` holds back. */
  function Reserved(o: Order, r: Reservation): real {
    if !IsOpen(o) then 0.0
    else match r
      case AssetReservation(key) => if o.side == Sell && HoldingOf(o) == key then o.amount else 0.0
      case CashEscrow(user) => if o.side == Buy && o.user == user then Value(o) else 0.0
  }

  /** The sum of `Reserved` over the orders table. */
  function TotalReserved(orders: seq<Order>, r: Reservation): real {
    if orders == [] then 0.0
    else TotalReserved(orders[..|orders| - 1], r) + Reserved(orders[|orders| - 1], r)
  }

  /** Prices and amounts of every order are positive (the request validation admits no other). */
  ghost predicate PositiveOrders(orders: seq<Order>) {
    forall i :: 0 <= i < |orders| ==> orders[i].price > 0.0 && orders[i].amount > 0.0
  }

  lemma ReservedNonnegative(o: Order, r: Reservation)
    requires o.price > 0.0 && o.amount > 0.0
    ensures Reserved(o, r) >= 0.0
  {
    if IsOpen(o) && r.CashEscrow? && o.side == Buy && o.user == r.user {
      PositiveProduct(o.price, o.amount);
    }
  }

  lemma PositiveProduct(x: real, y: real)
    requires x > 0.0 && y > 0.0
    ensures x * y > 0.0
  {
  }

  /** Appending an order adds exactly its own reservation. */
  lemma TotalReservedAppend(orders: seq<Order>, o: Order, r: Reservation)
    ensures TotalReserved(orders + [o], r) == TotalReserved(orders, r) + Reserved(o, r)
  {
    assert (orders + [o])[..|orders|] == orders;
  }

  /** Rewriting one row changes the sum by the difference of that row's reservations only. */
  lemma {:induction false} TotalReservedUpdate(orders: seq<Order>, i: nat, o: Order, r: Reservation)
    requires i < |orders|
    ensures TotalReserved(orders[i := o], r) == TotalReserved(orders, r) - Reserved(orders[i], r) + Reserved(o, r)
  {
    var n := |orders| - 1;
    if i == n {
      assert orders[i := o][..n] == orders[..n];
    } else {
      TotalReservedUpdate(orders[..n], i, o, r);
      assert orders[i := o][..n] == orders[..n][i := o];
    }
  }

  /** A reservation no order contributes to sums to zero. */
  lemma {:induction false} TotalReservedZero(orders: seq<Order>, r: Reservation)
    requires forall i :: 0 <= i < |orders| ==> Reserved(orders[i], r) == 0.0
    ensures TotalReserved(orders, r) == 0.0
  {
    if orders != [] {
      var n := |orders| - 1;
      assert forall i :: 0 <= i < n ==> orders[..n][i] == orders[i];
      TotalReservedZero(orders[..n], r);
    }
  }

  /** With positive orders, the sum covers each single order's reservation. */
  lemma {:induction false} TotalReservedCovers(orders: seq<Order>, i: nat, r: Reservation)
    requires PositiveOrders(orders)
    requires i < |orders|
    ensures Reserved(orders[i], r) <= TotalReserved(orders, r)
  {
    var n := |orders| - 1;
    assert PositiveOrders(orders[..n]) by {
      forall j | 0 <= j < n ensures orders[..n][j] == orders[j] { }
    }
    TotalReservedNonnegative(orders[..n], r);
    ReservedNonnegative(orders[n], r);
    if i < n {
      TotalReservedCovers(orders[..n], i, r);
      assert orders[..n][i] == orders[i];
    }
  }

  lemma {:induction false} TotalReservedNonnegative(orders: seq<Order>, r: Reservation)
    requires PositiveOrders(orders)
    ensures TotalReserved(orders, r) >= 0.0
  {
    if orders != [] {
      var n := |orders| - 1;
      assert PositiveOrders(orders[..n]) by {
        forall j | 0 <= j < n ensures orders[..n][j] == orders[j] { }
      }
      TotalReservedNonnegative(orders[..n], r);
      ReservedNonnegative(orders[n], r);
    }
  }

  /** Marks one order Filled, as `status = FILLED; save()` does. */
  function MarkFilled(orders: seq<Order>, id: OrderId): (r: seq<Order>)
    requires id < |orders|
    ensures |r| == |orders| && r[id].status == Filled
    ensures r[id].user == orders[id].user && r[id].symbol == orders[id].symbol && r[id].side == orders[id].side
    ensures r[id].price == orders[id].price && r[id].amount == orders[id].amount
    ensures forall j :: 0 <= j < |orders| && j != id ==> r[j] == orders[j]
  {
    orders[id := orders[id].(status := Filled)]
  }

  /** The orders table stays positive when only statuses change. */
  lemma PositiveAfterMarks(orders: seq<Order>, buyId: OrderId, sellId: OrderId)
    requires PositiveOrders(orders) && buyId < |orders| && sellId < |orders|
    ensures PositiveOrders(MarkFilled(MarkFilled(orders, buyId), sellId))
  {
    var twice := MarkFilled(MarkFilled(orders, buyId), sellId);
    forall i | 0 <= i < |twice|
      ensures twice[i].price == orders[i].price && twice[i].amount == orders[i].amount
    {
    }
  }

  /** A snapshot of the three tables. */
  datatype Tables = Tables(
    balances: map<UserId, real>,
    assets: map<AssetKey, Asset>,
    orders: seq<Order>)
  {
    /** No negative balance or holding; every order has positive price and amount. */
    ghost predicate Sound() {
      && (forall u :: u in balances ==> balances[u] >= 0.0)
      && (forall k :: k in assets ==> assets[k].amount >= 0.0 && assets[k].locked >= 0.0)
      && PositiveOrders(orders)
    }

    /**
     * Each holding's locked quantity is the sum of its Open sell orders' amounts,
     * and every Open sell order draws on an existing holding.
     */
    ghost predicate LocksMatchOrders() {
      && (forall k :: k in assets ==> assets[k].locked == TotalReserved(orders, AssetReservation(k)))
      && (forall i :: 0 <= i < |orders| && IsOpen(orders[i]) && orders[i].side == Sell ==> HoldingOf(orders[i]) in assets)
    }

    ghost predicate Valid() {
      Sound() && LocksMatchOrders()
    }
  }

  /** The outcome an operation reports together with the tables it commits. */
  datatype Transition<R> = Transition(result: R, tables: Tables)

  /** A user's cash: the balance plus what the user's Open buy orders hold in escrow. */
  function Equity(t: Tables, u: UserId): real {
    (if u in t.balances then t.balances[u] else 0.0) + TotalReserved(t.orders, CashEscrow(u))
  }

  /** The database: three tables whose rows the services rewrite in place. */
  class Ledger {
    var balances: map<UserId, real>
    var assets: map<AssetKey, Asset>
    var orders: seq<Order>

    function Snapshot(): Tables
      reads this
    {
      Tables(balances, assets, orders)
    }

    constructor (balances: map<UserId, real>, assets: map<AssetKey, Asset>, orders: seq<Order>)
      ensures Snapshot() == Tables(balances, assets, orders)
    {
      this.balances := balances;
      this.assets := assets;
      this.orders := orders;
    }
  }

  /**
   * Closing an Open sell order together with a buy order keeps every lock
   * matched, provided the seller's holding gives up exactly the sell amount
   * of its locked quantity, every other holding keeps its locked quantity, a
   * holding that did not exist starts with nothing locked, and no holding
   * disappears.
   */
  lemma {:induction false} LocksAfterTrade(t: Tables, buyId: OrderId, sellId: OrderId, balances: map<UserId, real>, assets: map<AssetKey, Asset>)
    requires t.LocksMatchOrders()
    requires buyId < |t.orders| && sellId < |t.orders|
    requires t.orders[buyId].side == Buy && t.orders[sellId].side == Sell && IsOpen(t.orders[sellId])
    requires t.assets.Keys <= assets.Keys
    requires forall k :: k in assets ==>
      assets[k].locked == (if k in t.assets then t.assets[k].locked else 0.0)
        - (if k == HoldingOf(t.orders[sellId]) then t.orders[sellId].amount else 0.0)
    ensures Tables(balances, assets, MarkFilled(MarkFilled(t.orders, buyId), sellId)).LocksMatchOrders()
  {
    var sell := t.orders[sellId];
    var once := MarkFilled(t.orders, buyId);
    var twice := MarkFilled(once, sellId);
    assert once[sellId] == sell;
    forall k | k in assets
      ensures assets[k].locked == TotalReserved(twice, AssetReservation(k))
    {
      var r := AssetReservation(k);
      TotalReservedUpdate(t.orders, buyId, t.orders[buyId].(status := Filled), r);
      TotalReservedUpdate(once, sellId, sell.(status := Filled), r);
      if k !in t.assets {
        forall i | 0 <= i < |t.orders|
          ensures Reserved(t.orders[i], r) == 0.0
        {
        }
        TotalReservedZero(t.orders, r);
      }
    }
    forall i | 0 <= i < |twice| && IsOpen(twice[i]) && twice[i].side == Sell
      ensures HoldingOf(twice[i]) in assets
    {
      assert twice[i] == t.orders[i];
    }
  }
}
